=== FILE: README.md ===
# NexusNews story clustering, in Dafny

NexusNews fetches articles from NewsAPI, groups the articles that report
the same event into story clusters, and shows only the stories that outlets
of at least two political leanings cover. This project models the part of
the program that does this and proves properties of the model:

- `getBiasForSource`, the outlet classifier. It trims the name, looks it up
  in the `SOURCE_BIAS` table, and on a miss tests lower-case name fragments
  in the order right, left, center. The default is center.
- `jaccardSimilarity` and its `clean` tokenizer. The tokenizer lower-cases
  the title, deletes everything that is neither `\w` nor `\s`, splits on
  whitespace and keeps the words longer than two characters.
- `clusterStories`:
  - it labels every story and sorts newest first;
  - it runs a first-fit scan over the clusters in creation order;
  - a cluster accepts a story dated less than 48 hours from the cluster's
    anchor whose title scores above 0.12 against the cluster's title;
  - a story no cluster accepts starts a new cluster.
- The article pipeline of the `/api/news` route:
  - deduplicate by URL through a `Map`;
  - keep the articles with a title and a source name, except the
    `[Removed]` placeholder;
  - cut each title at its first `" - "`;
  - cluster;
  - keep only the clusters in which two of the three leaning counts are
    positive.

Modules follow the program's structure:

| module | what it models |
|---|---|
| `Wrappers`, `Seqs` | `Option`; generic sequence facts (`Filter` for `Array.prototype.filter`, subsequences, multisets) |
| `Text` | JavaScript `trim`, `\s`, `\w`, `toLowerCase`, `includes`, `split(sep)[0]` |
| `SourceBias` | `SOURCE_BIAS` and `getBiasForSource` |
| `Similarity` | `clean` and `jaccardSimilarity` |
| `Stories` | `NewsItem`, `StoryCluster` and the leaning counts |
| `Clustering` | the scan of `clusterStories`, for any title test |
| `Sorting` | the newest-first stable sort |
| `Analyzer` | `clusterStories` as a whole, with the Jaccard test |
| `Dedup` | `Array.from(new Map(xs.map(x => [key(x), x])).values())` |
| `NewsRoute` | the route's pipeline from fetched articles to returned clusters |

Modelling choices:

- **Dates.** A date is an integer number of milliseconds, `Option<int>`.
  `None` stands for a string that `new Date(..)` turns into `NaN`. A `NaN`
  fails every window test, because every comparison with `NaN` is false.
- **Window.** `hoursDiff < 48` becomes `-WindowMs < t - anchor < WindowMs`
  with `WindowMs = 48 * 60 * 60 * 1000`. This is exact on integer
  milliseconds.
- **Threshold.** `similarity > 0.12` is decided in integers as
  `25 * |A ∩ B| > 3 * |A ∪ B|`. `Similarity.SimilarMeansAboveThreshold`
  proves this equal to the real-valued test.
- **Title test as a parameter.** The scan in `Clustering` takes the title
  test as a parameter. `Analyzer` instantiates it with the Jaccard test. The
  scan's properties therefore hold for any title test.
- **Cluster ids.** `crypto.randomUUID()` is modelled as the cluster's
  creation index.
- **Sort with `NaN`.** When a date is `NaN`, the comparator returns `NaN`
  and the engine's order is implementation-defined. The model fixes one
  order: the order of a stable insertion sort that treats `NaN` as "not
  newer". `SortOrders` and `SortStable` assume that every date parses; the
  partition and label properties need no such assumption.

- **Possessives.** The comment at src/lib/analyzer.ts:244 gives matching
  "Trump" against "Trump's" as the aim of the cleaning step. The code
  deletes the apostrophe, so "Trump's" becomes the single token "trumps"
  and shares nothing with "trump". `Similarity.PossessiveNotMatched` proves
  this. The model follows the code. A comment states an aim and not a
  behaviour, and the code does not show which repair was meant (a space
  in place of the punctuation, or dropping a trailing "s"), so no corrected
  tokenizer is proposed.

## Model

| member | source | states |
|---|---|---|
| SourceBias.BiasForSource | src/lib/analyzer.ts:168-178 | the trimmed name's table entry when it has one; otherwise right exactly when a right fragment occurs in the lower-cased name, then left exactly when a left fragment occurs, else center |
| SourceBias.SourceTable | src/lib/analyzer.ts:114-166 | definition: the outlet table, entry for entry; `TableEntriesReachable` and `KeysTrimmed` state what lookups can reach |
| SourceBias.Heuristic | src/lib/analyzer.ts:172-177 | right whenever a right fragment occurs; left exactly when no right but a left fragment occurs; center exactly when neither occurs (the center fragments cannot change the result) |
| SourceBias.TableEntriesReachable | src/lib/analyzer.ts:114-170 | every outlet in the table is given its table label when looked up by its own name |
| SourceBias.KeysTrimmed | src/lib/analyzer.ts:114-166 | every table key is already trimmed and starts with a capital, a digit or 'e' |
| SourceBias.NotInTable | src/lib/analyzer.ts:114-166 | a name that starts with anything but a capital, a digit or 'e' has no table entry |
| SourceBias.BiasIgnoresPadding | src/lib/analyzer.ts:168-170 | whitespace before or after a source name never changes its label |
| SourceBias.BiasOfTrimmed | src/lib/analyzer.ts:169 | classifying the trimmed name gives the raw name's label |
| SourceBias.FoxNewsPadded | src/lib/analyzer.ts:155-170 | "  Fox News " is found in the table after trimming and labelled right |
| SourceBias.MissResolvedRight | src/lib/analyzer.ts:172-173 | a trimmed, lower-case name outside the table that contains a right fragment is labelled right, whatever else it contains |
| SourceBias.RightFragmentsWin | src/lib/analyzer.ts:173-174 | "fox guardian" contains a right and a left fragment and is labelled right |
| SourceBias.BiasForSourceAsWritten | src/lib/analyzer.ts:170 | the lookup as written yields an inherited `Object.prototype` property exactly for trimmed names outside the table that are such properties, and otherwise the corrected label |
| SourceBias.ConstructorIsNotALabel | src/lib/analyzer.ts:170 | the source name "constructor" yields `Object.prototype.constructor`, not a leaning |
| Text.Lower | src/lib/analyzer.ts:172 | the lower-cased string contains no ASCII capital, is at least as long, and a string without capitals (nor U+0130, U+212A) is its own lower case |
| Text.LowerAppend | src/lib/analyzer.ts:172 | lowering distributes over concatenation, and one character lowers as `LowerChar` says |
| Text.LowerChar | src/lib/analyzer.ts:247 | an ASCII capital becomes the small letter at the same place in the alphabet; U+0130 becomes "i" and U+0307; U+212A becomes "k"; every other character, whitespace included, is kept |
| Text.TrimStart | src/lib/analyzer.ts:169 | a suffix of the input with only whitespace removed before it, and not starting with whitespace |
| Text.Trim | src/lib/analyzer.ts:169 | the result is a slice of the input with only whitespace before and after it |
| Text.TrimIsTrimmed | src/lib/analyzer.ts:169 | trim leaves no whitespace at either end |
| Text.TrimIdempotent | src/lib/analyzer.ts:169 | trimming twice is trimming once |
| Text.TrimIgnoresPadding | src/lib/analyzer.ts:169 | whitespace added at both ends is removed again by trim |
| Text.BeforeFirst | src/app/api/news/route.ts:116 | a prefix of the title with no separator before its end, followed by the separator whenever it is shorter than the title |
| Text.BeforeFirstHasNoSeparator | src/app/api/news/route.ts:116 | the part before the first " - " never contains " - " |
| Text.BeforeFirstWithoutSeparator | src/app/api/news/route.ts:116 | the title is kept whole exactly when it does not contain the separator |
| Similarity.StripPunctuation | src/lib/analyzer.ts:248 | the input with exactly its word and whitespace characters kept, in order (equal to the generic filter, built from the other end); hence a character occurs in the result exactly when it occurs in the input and is kept |
| Similarity.WordLength | src/lib/analyzer.ts:249 | the length of the maximal whitespace-free run that starts the string |
| Similarity.Words | src/lib/analyzer.ts:249 | every word is non-empty; `WordsComplete` and `WordsSound` carry what the words are |
| Similarity.WordAt | src/lib/analyzer.ts:249 | the run of non-whitespace characters at a word start is non-empty and inside the string |
| Similarity.WordsComplete | src/lib/analyzer.ts:249 | every maximal run of non-whitespace characters is one of the words |
| Similarity.WordsSound | src/lib/analyzer.ts:249 | every word is a maximal run of non-whitespace characters |
| Similarity.WordsShape | src/lib/analyzer.ts:249 | every word is non-empty and made of whitespace-free characters of the string |
| Similarity.Tokens | src/lib/analyzer.ts:245-251 | every token is longer than two characters; `TokensShape` and the examples below carry the rest |
| Similarity.HeadlineTokens | src/lib/analyzer.ts:245-251 | the tokens of "Fed cuts rates" are "fed", "cuts" and "rates" |
| Similarity.ThreeWordTokens | src/lib/analyzer.ts:245-251 | a title that lowers to three plain words of three or more letters, separated by spaces, has exactly those three tokens |
| Similarity.PossessiveNotMatched | src/lib/analyzer.ts:244-251 | "Trump" gives the token "trump" and "Trump's" the token "trumps", so the two score 0 and are not similar |
| Similarity.TokensShape | src/lib/analyzer.ts:245-251 | every token is longer than two characters and holds only lower-case word characters |
| Similarity.Jaccard | src/lib/analyzer.ts:253-260 | a score in [0, 1]; 0 when both sets are empty; 1 exactly when the sets are equal and not empty |
| Similarity.Ratio | src/lib/analyzer.ts:259-260 | shared over all tokens is in [0, 1], is 0 exactly with no shared token, and is 1 exactly when all are shared |
| Similarity.SharedIsAllExactlyWhenEqual | src/lib/analyzer.ts:256-257 | the intersection is as large as the union exactly when the sets are equal |
| Similarity.Score | src/lib/analyzer.ts:243-261 | a score in [0, 1]; 0 when neither title has a token; 1 exactly when both have the same non-empty token set |
| Similarity.Similar | src/lib/analyzer.ts:188-210 | the titles pass exactly when their score exceeds 0.12 |
| Similarity.SimilarMeansAboveThreshold | src/lib/analyzer.ts:188-210 | the integer test `25 * shared > 3 * all` holds exactly when the Jaccard index exceeds 0.12 |
| Similarity.ThresholdInIntegers | src/lib/analyzer.ts:210 | a ratio `i / u` exceeds 0.12 exactly when `25 * i > 3 * u` |
| Similarity.ScoreSymmetric | src/lib/analyzer.ts:243-261 | the score and the threshold test do not depend on argument order |
| Similarity.SelfSimilar | src/lib/analyzer.ts:243-261 | a title passes the test against itself exactly when it has a token |
| Stories.CountsCoverItems | src/lib/analyzer.ts:211-233 | the three label counts plus the unlabelled stories make up all the stories |
| Stories.CountBiasAppend | src/lib/analyzer.ts:213-215 | appending a story adds one to its own label's count and leaves the others |
| Clustering.WithinWindow | src/lib/analyzer.ts:203-207 | definition: both dates parse and differ by less than 48 hours; `UndatedStartsCluster` states the `NaN` case |
| Clustering.Accepts | src/lib/analyzer.ts:203-210 | definition: the window test and the title test an existing cluster applies; `MembersNearAnchor` states what joining implies |
| Clustering.SummaryOf | src/lib/analyzer.ts:227 | definition: the description when it is present and non-empty, else the title (`description \|\| title`) |
| Clustering.NewCluster | src/lib/analyzer.ts:224-235 | the new cluster has the given id and holds only its story; `NewClusterInvariant` carries the rest |
| Clustering.NewClusterInvariant | src/lib/analyzer.ts:224-235 | a new cluster takes its title, summary and anchor from its story and counts it under its label |
| Clustering.AddStory | src/lib/analyzer.ts:211-215 | the story is appended and the id, title, summary and anchor are kept |
| Clustering.AddStoryKeepsInvariant | src/lib/analyzer.ts:203-215 | a story that passed a cluster's window and title tests keeps the cluster's invariant |
| Clustering.FirstFitFrom | src/lib/analyzer.ts:202-220 | the first cluster from a given position that accepts the story, or none when none does |
| Clustering.Place | src/lib/analyzer.ts:199-236 | the story joins the first accepting cluster in creation order, or starts a new cluster at the end when none accepts it |
| Clustering.PlaceKeepsWellFormed | src/lib/analyzer.ts:198-237 | placing a story keeps the ids in creation order and every cluster's invariant |
| Clustering.PlaceAddsStory | src/lib/analyzer.ts:198-237 | placing a story adds exactly that story to the clusters and at most one cluster |
| Clustering.Assign | src/lib/analyzer.ts:198-239 | no more clusters than stories, and none exactly when there are no stories; `AssignPartitions`, `AssignWellFormed` and `MembersNearAnchor` carry the rest |
| Clustering.AssignPartitions | src/lib/analyzer.ts:198-239 | the clusters hold every scanned story exactly as often as it occurs, and there are no more clusters than stories |
| Clustering.AssignWellFormed | src/lib/analyzer.ts:198-239 | every cluster the scan builds keeps its invariant, and ids follow creation order |
| Clustering.AssignCountsStories | src/lib/analyzer.ts:198-239 | the clusters hold as many stories as were scanned |
| Clustering.UndatedStartsCluster | src/lib/analyzer.ts:204-207 | a story with an unparseable date always starts a cluster of its own |
| Clustering.UndatedClusterIsSingleton | src/lib/analyzer.ts:204-207 | a cluster anchored at an unparseable date never takes a second story |
| Clustering.MembersNearAnchor | src/lib/analyzer.ts:204-210 | every later member is dated within 48 hours of the anchor and passed the title test against the cluster's title |
| Clustering.DistributionCountsLabelled | src/lib/analyzer.ts:211-233 | when every story is labelled, the three counts add up to the cluster's size |
| Clustering.MemberOfCluster | src/lib/analyzer.ts:198-239 | each story of each cluster is among the members of the clustering |
| Clustering.TotalItemsCountsMembers | src/lib/analyzer.ts:198-239 | the clusters' sizes add up to the number of members |
| Sorting.Newer | src/lib/analyzer.ts:194-196 | definition: the comparator is negative, so both dates parse and the first is later; `SortOrders` and `SortStable` state the order it induces |
| Sorting.Insert | src/lib/analyzer.ts:194-196 | a length bound only (one more story); `InsertPermutes`, `InsertKeepsOrder` and `InsertAt` carry its properties |
| Sorting.SortNewestFirst | src/lib/analyzer.ts:194-196 | a length bound only (as many stories); `SortPermutes`, `SortOrders` and `SortStable` carry its properties |
| Sorting.InsertPermutes | src/lib/analyzer.ts:194-196 | inserting adds exactly that story |
| Sorting.SortPermutes | src/lib/analyzer.ts:194-196 | the sort neither adds nor drops a story |
| Sorting.InsertKeepsOrder | src/lib/analyzer.ts:194-196 | inserting a dated story into a newest-first list keeps it newest first |
| Sorting.SortOrders | src/lib/analyzer.ts:194-196 | with parseable dates the result is newest first |
| Sorting.InsertAt | src/lib/analyzer.ts:194-196 | inserting a story appends it to the stories of its instant and leaves the other instants alone |
| Sorting.SortStable | src/lib/analyzer.ts:194-196 | stories with the same instant keep their input order |
| Sorting.DatedByMultiset | src/lib/analyzer.ts:194-196 | a rearrangement of stories with parseable dates has parseable dates |
| Analyzer.Enrich | src/lib/analyzer.ts:191-193 | the story gets its outlet's label and nothing else changes |
| Analyzer.EnrichAll | src/lib/analyzer.ts:191-194 | one labelled story per input story, at the same position |
| Analyzer.EnrichKeepsDates | src/lib/analyzer.ts:191-193 | labelling labels every story and keeps every date |
| Analyzer.ClusterStories | src/lib/analyzer.ts:185-240 | no more clusters than stories, and none for no stories; the lemmas below carry its properties |
| Analyzer.ClusterStoriesWellFormed | src/lib/analyzer.ts:185-240 | the clusters are numbered in creation order and keep their invariant |
| Analyzer.ClusterStoriesPartitions | src/lib/analyzer.ts:185-240 | every labelled input story is in exactly one cluster, as often as it occurs, and the sizes add up to the input length |
| Analyzer.ClusterStoriesLabels | src/lib/analyzer.ts:191-193 | every story in the output carries a label and is a labelled input story |
| Analyzer.ClusterMemberIsLabelled | src/lib/analyzer.ts:191-193 | a story of an output cluster is a labelled input story |
| Analyzer.ClusterStoriesDistribution | src/lib/analyzer.ts:211-233 | every cluster's three counts add up to its number of stories |
| Analyzer.ClusterStoriesAllCounted | src/lib/analyzer.ts:211-233 | every cluster's counts add up to its size, for all clusters at once |
| Analyzer.CountAsWritten | src/lib/analyzer.ts:213-233 | with the lookup as written, a real label adds one to its own count and leaves the other two unchanged, and an inherited property adds to no count |
| Analyzer.ConstructorCountsNowhere | src/lib/analyzer.ts:229-233 | as written, the founding count of a story from "constructor" adds up to 0, although its cluster holds that story |
| Analyzer.ClusterStoriesScores | src/lib/analyzer.ts:209-210 | every later member's title scores above 0.12 against the cluster's title |
| Analyzer.AssignAnchorsNewest | src/lib/analyzer.ts:194-236 | scanning newest first, no story of a cluster is newer than its first story |
| Analyzer.PlaceKeepsAnchorsNewest | src/lib/analyzer.ts:198-236 | a story no newer than any placed story keeps every cluster's first story its newest |
| Analyzer.JoinKeepsAnchorsNewest | src/lib/analyzer.ts:211 | appending a story no newer than the anchor keeps the anchor the newest |
| Analyzer.NewKeepsAnchorsNewest | src/lib/analyzer.ts:224 | a new singleton cluster keeps every anchor the newest |
| Analyzer.ClusterStoriesWindow | src/lib/analyzer.ts:191-236 | with parseable dates, every member lies in the 48 hours up to its cluster's anchor |
| Analyzer.ScanWindow | src/lib/analyzer.ts:198-236 | the same window property for any dated newest-first scan and any title test |
| Analyzer.ClusterWindow | src/lib/analyzer.ts:204-207 | in a cluster whose anchor is its newest story, a dated member lies in the 48 hours up to the anchor |
| Analyzer.ScanMemberDated | src/lib/analyzer.ts:198-237 | every story the scan places keeps its parseable date |
| Dedup.DedupBy | src/app/api/news/route.ts:109 | a length bound only; `DedupDistinct`, `DedupCoversKeys`, `DedupLastWins`, `DedupFromInput` and `DedupKeepsFirstOrder` carry its properties |
| Dedup.MapSet | src/app/api/news/route.ts:109 | `Map.prototype.set`: keys stay in place; the length grows by one exactly when the key is new, and then the value goes last; entries with other keys are untouched; the value is present afterwards; with distinct keys, the entry holding the key becomes the value and keys stay distinct |
| Dedup.IndexOfKey | src/app/api/news/route.ts:109 | the first position with the key, or none when no element has it |
| Dedup.DedupDistinct | src/app/api/news/route.ts:109 | the values hold each key once |
| Dedup.DedupCoversKeys | src/app/api/news/route.ts:109 | every input key has an entry |
| Dedup.DedupLastWins | src/app/api/news/route.ts:109 | every entry is the last input element with its key |
| Dedup.DedupFromInput | src/app/api/news/route.ts:109 | every entry is an input element |
| Dedup.DedupKeepsFirstOrder | src/app/api/news/route.ts:109 | the entries are in the order in which their keys first occur |
| Dedup.DedupOfDistinct | src/app/api/news/route.ts:109 | input with distinct keys passes through unchanged |
| NewsRoute.DedupByUrl | src/app/api/news/route.ts:109 | a length bound only; the three lemmas below carry its properties |
| NewsRoute.DedupByUrlKeepsLast | src/app/api/news/route.ts:109 | each URL is kept once, with the last article that has it, and no URL is lost |
| NewsRoute.DedupByUrlKeepsOrder | src/app/api/news/route.ts:109 | the kept articles are in the order their URLs first appear |
| NewsRoute.DedupByUrlOfDistinct | src/app/api/news/route.ts:109 | articles with distinct URLs pass through unchanged |
| NewsRoute.Usable | src/app/api/news/route.ts:113 | definition: the filter's test (a non-empty title and source name, and a title other than "[Removed]"); `TransformIsMappedFilter` and `TransformComplete` state that exactly these articles pass |
| NewsRoute.ToNewsItem | src/app/api/news/route.ts:113-121 | fields copied, no label yet, and the title cut to a prefix without " - " that ends where the first " - " starts; cut exactly when it contains " - " |
| NewsRoute.ToNewsItems | src/app/api/news/route.ts:114-121 | one item per article, at the same position, built by `ToNewsItem` |
| NewsRoute.Transform | src/app/api/news/route.ts:112-121 | a length bound only; `TransformIsMappedFilter`, `TransformComplete` and `TransformKeepsUsable` carry its properties |
| NewsRoute.TransformKeepsUsable | src/app/api/news/route.ts:112-121 | the filter keeps exactly the usable articles, as a subsequence of the input, and every item is built from a usable article |
| NewsRoute.TransformIsMappedFilter | src/app/api/news/route.ts:112-121 | the items correspond one for one, in order, to the filtered usable articles, each built by `ToNewsItem` |
| NewsRoute.TransformComplete | src/app/api/news/route.ts:112-121 | every usable article has its item in the output |
| NewsRoute.Diverse | src/app/api/news/route.ts:129-131 | definition: at least two of the three counts are positive |
| NewsRoute.IntersectionFilter | src/app/api/news/route.ts:128-138 | a length bound only; `IntersectionKeepsDiverse`, `KeptHaveTwo` and `NoneKept` carry its properties |
| NewsRoute.IntersectionKeepsDiverse | src/app/api/news/route.ts:128-138 | exactly the clusters with two positive leaning counts are kept, in order |
| NewsRoute.DiverseHasTwo | src/app/api/news/route.ts:130-133 | when a cluster counts all its stories, two leanings need two stories |
| NewsRoute.KeptHaveTwo | src/app/api/news/route.ts:128-138 | a kept cluster is an input cluster with two leanings and at least two stories |
| NewsRoute.NoneKept | src/app/api/news/route.ts:128-138 | when no cluster has two leanings the result is empty |
| NewsRoute.AtMostOneStoryNotKept | src/app/api/news/route.ts:128-138 | clusters that hold one story in all are all dropped |
| NewsRoute.Pipeline | src/app/api/news/route.ts:109-121 | a length bound only (no more stories than articles); `StoryFromArticle` states that every story is a shaped usable article |
| NewsRoute.News | src/app/api/news/route.ts:109-138 | no more clusters than fetched articles; the lemmas below carry its properties |
| NewsRoute.NewsClustersAreDiverse | src/app/api/news/route.ts:125-138 | every returned cluster is one `clusterStories` built, with two leanings and at least two stories |
| NewsRoute.NoFallback | src/app/api/news/route.ts:128-138 | when no cluster has two leanings the route returns no clusters |
| NewsRoute.LoneArticleShowsNothing | src/app/api/news/route.ts:109-138 | one fetched article or none gives no clusters at all |
| NewsRoute.NewsStoriesFromArticles | src/app/api/news/route.ts:109-138 | every returned story is a usable fetched article, shaped as an item and labelled |
| NewsRoute.StoryFromArticle | src/app/api/news/route.ts:109-121 | every story handed to `clusterStories` is a usable fetched article |

## Left out

- Fetching is not modelled: `fetch`, the API key, the query and time-range construction, the parallel left/right requests, and the top-headlines request made when no article arrives (src/app/api/news/route.ts before line 109). The model starts from the fetched `articles` array.
- `NextResponse`, the `catch` branch and its 500 response, and `console.log` are left out: they are I/O.
- The domain lists and other constants at the top of src/lib/analyzer.ts are left out: only the fetch uses them.
- The deep-analysis route and the UI components are left out: they are not part of this pipeline.
- ISO date parsing is not modelled: a date is given as the instant it denotes, or `None` when it does not parse.
- Analyzer.Enrich: the pipeline (`Enrich`, `ClusterStories`, `News`) labels stories with the corrected classifier `SourceBias.BiasForSource`, not with the lookup as written (see "## Findings"). With the lookup as written, a story whose trimmed source name is an `Object.prototype` property counts toward no leaning, so a cluster's three counts can add up to less than its size; `Analyzer.CountAsWritten` and `Analyzer.ConstructorCountsNowhere` model that case.
- Sorting.SortNewestFirst: when a date is `NaN` the comparator is inconsistent and the language leaves the resulting order to the engine. The model fixes it as the order of a stable insertion sort.
- Text.Lower: inherits the gap of `Text.LowerChar` below. A non-ASCII capital other than U+0130 and U+212A (such as "É") is kept, whereas `toLowerCase` lowers it, so "a string without capitals is its own lower case" holds only for the capitals the model maps.
- Text.LowerChar: only the characters whose lower case contains an ASCII letter are mapped. Every other non-ASCII character is kept as it is. The tokenizer deletes those characters anyway, and they cannot take part in a match with the ASCII fragments, so no result of the model depends on the difference.
- JavaScript strings are UTF-16. The model uses sequences of Unicode scalar values. `\w`, `\s` and `" - "` are all in the Basic Multilingual Plane, so the results agree.
- `Similarity.Words` leaves out the empty strings that `split(/\s+/)` gives at either end. The length filter drops them anyway.
- An article whose `source` is missing makes `article.source.name` throw. The model has `sourceName: None` for such an article and treats it as unusable.
- A missing `url` is not modelled: it would make `undefined` a `Map` key. `Article.url` is a string.
- The title test `similar` of `Clustering` is a parameter. The Jaccard test is the only instance the program uses.
- `crypto.randomUUID()` is modelled as a creation counter. The model proves only that the ids are distinct and in creation order.
- The `clusters.length > 0` guard of the route is kept as written. Filtering an empty list gives the same result.

## Findings

| source | as written | input that shows it | evidently intended | confidence | as-written member | corrected member |
|---|---|---|---|---|---|---|
| src/lib/analyzer.ts:170 | `SOURCE_BIAS[cleanName]` reads a plain object literal, so a name outside the table that is an `Object.prototype` property (`constructor`, `toString`, `__proto__`, …) finds an inherited function or object. That value is truthy and is returned as the leaning. Such a story then counts toward no leaning: a new cluster compares the label with the three leanings by `===` (lines 229-233), and a join increments a fourth key named by the function (lines 213-214), so the three counts add up to less than the cluster's size. | a source named "constructor" | only the table's own entries are labels; every other name goes to the fragment heuristics, so every story counts toward exactly one leaning | high that the lookup behaves so; such a source name is unlikely in practice; not executed | SourceBias.ConstructorIsNotALabel | SourceBias.BiasForSource |

=== FILE: analyzer.dfy ===
/** `clusterStories` as a whole (src/lib/analyzer.ts): label every story
    with its outlet's leaning, sort newest first, and scan with the
    `jaccardSimilarity(..) > 0.12` title test. */
module Analyzer {
  import opened Wrappers
  import opened SourceBias
  import opened Similarity
  import opened Stories
  import opened Clustering
  import opened Sorting

  /** `{ ...s, bias: getBiasForSource(s.source) }`: the story with its
      outlet's label, and nothing else changed. */
  function Enrich(s: NewsItem): (r: NewsItem)
    ensures r.bias == Some(BiasForSource(s.source))
    ensures r.(bias := s.bias) == s
  {
    s.(bias := Some(BiasForSource(s.source)))
  }

  /** `stories.map(..)` with `Enrich`. */
  function EnrichAll(stories: seq<NewsItem>): (r: seq<NewsItem>)
    ensures |r| == |stories|
    ensures forall i | 0 <= i < |r| :: r[i] == Enrich(stories[i])
  {
    seq(|stories|, i requires 0 <= i < |stories| => Enrich(stories[i]))
  }

  /** Labelling keeps every date, and labels every story. */
  lemma EnrichKeepsDates(stories: seq<NewsItem>)
    ensures AllLabelled(EnrichAll(stories))
    ensures Dated(stories) <==> Dated(EnrichAll(stories))
  {
    var r := EnrichAll(stories);
    assert forall i | 0 <= i < |r| :: r[i].publishedAt == stories[i].publishedAt;
  }

  /** `clusterStories(stories)`. */
  function ClusterStories(stories: seq<NewsItem>): (r: seq<StoryCluster>)
    ensures |r| <= |stories|
    ensures stories == [] ==> r == []
  {
    var scan := SortNewestFirst(EnrichAll(stories));
    AssignPartitions(scan, Similar);
    Assign(scan, Similar)
  }

  /** The clusters are numbered in creation order and every cluster keeps
      its invariant under the title test `Similar`. */
  lemma ClusterStoriesWellFormed(stories: seq<NewsItem>)
    ensures WellFormed(ClusterStories(stories), Similar)
  {
    AssignWellFormed(SortNewestFirst(EnrichAll(stories)), Similar);
  }

  /** Every input story, labelled, lands in exactly one cluster; the
      clusters hold as many stories as were given. */
  lemma ClusterStoriesPartitions(stories: seq<NewsItem>)
    ensures Members(ClusterStories(stories)) == multiset(EnrichAll(stories))
    ensures TotalItems(ClusterStories(stories)) == |stories|
  {
    var scan := SortNewestFirst(EnrichAll(stories));
    AssignPartitions(scan, Similar);
    SortPermutes(EnrichAll(stories));
    AssignCountsStories(scan, Similar);
  }

  /** Every story in the output carries its outlet's label. */
  lemma ClusterStoriesLabels(stories: seq<NewsItem>, i: nat, k: nat)
    requires i < |ClusterStories(stories)| && k < |ClusterStories(stories)[i].items|
    ensures ClusterStories(stories)[i].items[k].bias.Some?
    ensures exists j | 0 <= j < |stories| :: ClusterStories(stories)[i].items[k] == Enrich(stories[j])
  {
    var r := ClusterStories(stories);
    MemberOfCluster(r, i, k);
    ClusterStoriesPartitions(stories);
    assert r[i].items[k] in multiset(EnrichAll(stories));
    var e := EnrichAll(stories);
    var j :| 0 <= j < |e| && e[j] == r[i].items[k];
  }

  /** `ClusterStoriesLabels` for a cluster and a story named by value. */
  lemma ClusterMemberIsLabelled(stories: seq<NewsItem>, c: StoryCluster, x: NewsItem)
    requires c in ClusterStories(stories) && x in c.items
    ensures exists j | 0 <= j < |stories| :: x == Enrich(stories[j])
  {
    var cs := ClusterStories(stories);
    var i :| 0 <= i < |cs| && cs[i] == c;
    var k :| 0 <= k < |c.items| && c.items[k] == x;
    ClusterStoriesLabels(stories, i, k);
  }

  /** Since every story is labelled, the three counts of a cluster add up
      to its number of stories. */
  lemma ClusterStoriesDistribution(stories: seq<NewsItem>, i: nat)
    requires i < |ClusterStories(stories)|
    ensures ClusterStories(stories)[i].distribution.Total() == |ClusterStories(stories)[i].items|
  {
    var c := ClusterStories(stories)[i];
    forall k | 0 <= k < |c.items| ensures c.items[k].bias.Some? {
      ClusterStoriesLabels(stories, i, k);
    }
    ClusterStoriesWellFormed(stories);
    DistributionCountsLabelled(c, Similar);
  }

  /** `ClusterStoriesDistribution` for every cluster at once. */
  lemma ClusterStoriesAllCounted(stories: seq<NewsItem>)
    ensures forall i | 0 <= i < |ClusterStories(stories)| ::
      ClusterStories(stories)[i].distribution.Total() == |ClusterStories(stories)[i].items|
  {
    forall i | 0 <= i < |ClusterStories(stories)|
      ensures ClusterStories(stories)[i].distribution.Total() == |ClusterStories(stories)[i].items|
    {
      ClusterStoriesDistribution(stories, i);
    }
  }

  /** How one story changes a cluster's counts when its label is the
      lookup as written: the literal initial counts compare the label with
      'left', 'center' and 'right' by `===`, and the join increments the
      key the label names, so an inherited property counts toward no
      leaning. */
  function CountAsWritten(d: Distribution, found: LookupResult): (r: Distribution)
    ensures found.Label? ==> r.Get(found.bias) == d.Get(found.bias) + 1 && r.Total() == d.Total() + 1
    ensures found.Label? ==> forall o: Bias | o != found.bias :: r.Get(o) == d.Get(o)
    ensures found.Inherited? ==> r == d
  {
    match found
    case Label(b) => d.Inc(b)
    case Inherited(_) => d
  }

  /** The founding count, as written, of a story from an outlet named
      "constructor" adds up to 0: its cluster holds that story, yet counts
      nothing. */
  lemma ConstructorCountsNowhere(name: string)
    requires name == "constructor"
    ensures CountAsWritten(Distribution(0, 0, 0), BiasForSourceAsWritten(name)).Total() == 0
  {
    ConstructorIsNotALabel(name);
  }

  /** Every later member of a cluster scored above 0.12 against the
      cluster's title. */
  lemma ClusterStoriesScores(stories: seq<NewsItem>, i: nat, k: nat)
    requires i < |ClusterStories(stories)| && 1 <= k < |ClusterStories(stories)[i].items|
    ensures Score(ClusterStories(stories)[i].items[k].title, ClusterStories(stories)[i].mainTitle) > 0.12
  {
    var c := ClusterStories(stories)[i];
    ClusterStoriesWellFormed(stories);
    MembersNearAnchor(c, Similar, k);
    SimilarMeansAboveThreshold(Tokens(c.items[k].title), Tokens(c.mainTitle));
  }

  /** Every cluster has a first story, and none of its stories is newer
      than that one. */
  ghost predicate AnchorsNewest(cs: seq<StoryCluster>) {
    && (forall i | 0 <= i < |cs| :: cs[i].items != [])
    && (forall i, k | 0 <= i < |cs| && 0 <= k < |cs[i].items| :: !Newer(cs[i].items[k], cs[i].items[0]))
  }

  lemma PlaceKeepsAnchorsNewest(cs: seq<StoryCluster>, s: NewsItem, similar: TitleTest)
    requires AnchorsNewest(cs)
    requires forall x | x in Members(cs) :: !Newer(s, x)
    ensures AnchorsNewest(Place(cs, s, similar))
  {
    match FirstFitFrom(cs, s, 0, similar)
    case Some(i) =>
      MemberOfCluster(cs, i, 0);
      JoinKeepsAnchorsNewest(cs, i, s);
    case None =>
      NewKeepsAnchorsNewest(cs, s);
  }

  lemma JoinKeepsAnchorsNewest(cs: seq<StoryCluster>, i: nat, s: NewsItem)
    requires AnchorsNewest(cs) && i < |cs| && cs[i].items != [] && !Newer(s, cs[i].items[0])
    ensures AnchorsNewest(cs[i := AddStory(cs[i], s)])
  {
    var r := cs[i := AddStory(cs[i], s)];
    forall j, k | 0 <= j < |r| && 0 <= k < |r[j].items|
      ensures !Newer(r[j].items[k], r[j].items[0])
    {
      if j == i && k == |cs[i].items| {
        assert r[j].items[k] == s && r[j].items[0] == cs[i].items[0];
      } else if j == i {
        assert r[j].items[k] == cs[i].items[k] && r[j].items[0] == cs[i].items[0];
      }
    }
  }

  lemma NewKeepsAnchorsNewest(cs: seq<StoryCluster>, s: NewsItem)
    requires AnchorsNewest(cs)
    ensures AnchorsNewest(cs + [NewCluster(|cs|, s)])
  {
    var r := cs + [NewCluster(|cs|, s)];
    forall j, k | 0 <= j < |r| && 0 <= k < |r[j].items|
      ensures !Newer(r[j].items[k], r[j].items[0])
    {
      if j < |cs| {
        assert r[j] == cs[j];
      }
    }
  }

  /** Scanning a newest-first list, each cluster's first story is its
      newest. */
  lemma {:induction false} AssignAnchorsNewest(stories: seq<NewsItem>, similar: TitleTest)
    requires NewestFirst(stories)
    ensures AnchorsNewest(Assign(stories, similar))
  {
    if stories != [] {
      var n := |stories| - 1;
      var init, last := stories[..n], stories[n];
      assert NewestFirst(init) by {
        forall i | 0 <= i < n ensures init[i] == stories[i] { }
      }
      AssignAnchorsNewest(init, similar);
      AssignPartitions(init, similar);
      var before := Assign(init, similar);
      assert Assign(stories, similar) == Place(before, last, similar);
      forall x | x in Members(before) ensures !Newer(last, x) {
        assert x in multiset(init);
        var j :| 0 <= j < n && init[j] == x;
        assert !Newer(stories[n], stories[j]);
      }
      PlaceKeepsAnchorsNewest(before, last, similar);
    }
  }

  /** With valid dates, each cluster covers the 48 hours before its first
      story: every member is at most as new as the anchor and less than 48
      hours older. */
  lemma ClusterStoriesWindow(stories: seq<NewsItem>, i: nat, k: nat)
    requires Dated(stories)
    requires i < |ClusterStories(stories)| && k < |ClusterStories(stories)[i].items|
    ensures ClusterStories(stories)[i].items[k].publishedAt.Some?
    ensures ClusterStories(stories)[i].firstPublishedAt.Some?
    ensures var t, a := ClusterStories(stories)[i].items[k].publishedAt.value,
                        ClusterStories(stories)[i].firstPublishedAt.value;
            a - WindowMs < t <= a
  {
    var e := EnrichAll(stories);
    EnrichKeepsDates(stories);
    SortPermutes(e);
    DatedByMultiset(e, SortNewestFirst(e));
    SortOrders(e);
    ScanWindow(SortNewestFirst(e), Similar, i, k);
  }

  /** `ClusterStoriesWindow` for any dated newest-first scan and any title
      test. */
  lemma ScanWindow(scan: seq<NewsItem>, similar: TitleTest, i: nat, k: nat)
    requires Dated(scan) && NewestFirst(scan)
    requires i < |Assign(scan, similar)| && k < |Assign(scan, similar)[i].items|
    ensures Assign(scan, similar)[i].items[k].publishedAt.Some?
    ensures Assign(scan, similar)[i].firstPublishedAt.Some?
    ensures var t, a := Assign(scan, similar)[i].items[k].publishedAt.value,
                        Assign(scan, similar)[i].firstPublishedAt.value;
            a - WindowMs < t <= a
  {
    var cs := Assign(scan, similar);
    AssignAnchorsNewest(scan, similar);
    AssignWellFormed(scan, similar);
    ScanMemberDated(scan, similar, i, k);
    ScanMemberDated(scan, similar, i, 0);
    ClusterWindow(cs[i], similar, k);
  }

  /** Every story the scan places keeps its date. */
  lemma ScanMemberDated(scan: seq<NewsItem>, similar: TitleTest, i: nat, k: nat)
    requires Dated(scan)
    requires i < |Assign(scan, similar)| && k < |Assign(scan, similar)[i].items|
    ensures Assign(scan, similar)[i].items[k].publishedAt.Some?
  {
    AssignPartitions(scan, similar);
    MemberOfCluster(Assign(scan, similar), i, k);
    DatedMember(scan, Assign(scan, similar)[i].items[k]);
  }

  /** In a cluster whose anchor is its newest dated story, every dated
      member lies in the 48 hours up to the anchor. */
  lemma ClusterWindow(c: StoryCluster, similar: TitleTest, k: nat)
    requires ClusterInvariant(c, similar) && k < |c.items|
    requires c.items[k].publishedAt.Some? && c.items[0].publishedAt.Some?
    requires !Newer(c.items[k], c.items[0])
    ensures c.firstPublishedAt.Some?
    ensures c.firstPublishedAt.value - WindowMs < c.items[k].publishedAt.value <= c.firstPublishedAt.value
  {
    if k >= 1 {
      MembersNearAnchor(c, similar, k);
    }
  }

  lemma DatedMember(s: seq<NewsItem>, x: NewsItem)
    requires Dated(s) && x in multiset(s)
    ensures x.publishedAt.Some?
  {
  }
}

=== FILE: clustering.dfy ===
/** `clusterStories` (src/lib/analyzer.ts): a first-fit greedy grouping of
    stories, scanned newest first, into clusters anchored at their first
    story. */
module Clustering {
  import opened Wrappers
  import opened SourceBias
  import opened Stories
  import opened Seqs

  /** 48 hours in milliseconds. */
  const WindowMs: int := 48 * 60 * 60 * 1000

  /** `Math.abs(t - anchor) / 3600000 < 48`. A `NaN` date on either side
      makes the comparison false. */
  predicate WithinWindow(t: Option<int>, anchor: Option<int>) {
    t.Some? && anchor.Some? && -WindowMs < t.value - anchor.value < WindowMs
  }

  /** A test on two titles. The scan is stated for any such test and
      `clusterStories` runs it with `Similarity.Similar`, the
      `jaccardSimilarity(..) > 0.12` test; keeping it a parameter keeps the
      tokenizer out of the proofs about the scan. */
  type TitleTest = (string, string) -> bool

  /** The two tests an existing cluster applies to a story: the time window
      around its anchor, and title similarity with its `mainTitle`. */
  predicate Accepts(c: StoryCluster, s: NewsItem, similar: TitleTest) {
    WithinWindow(s.publishedAt, c.firstPublishedAt) && similar(s.title, c.mainTitle)
  }

  /** `story.description || story.title`. */
  function SummaryOf(s: NewsItem): string {
    if s.description.Some? && s.description.value != [] then s.description.value else s.title
  }

  /** What a cluster keeps from the story that created it, what it counts,
      and the tests every later member passed against those creation-time
      values. */
  ghost predicate ClusterInvariant(c: StoryCluster, similar: TitleTest) {
    && |c.items| >= 1
    && c.mainTitle == c.items[0].title
    && c.summary == SummaryOf(c.items[0])
    && c.firstPublishedAt == c.items[0].publishedAt
    && (forall b: Bias :: c.distribution.Get(b) == CountBias(c.items, b))
    && (forall k | 1 <= k < |c.items| :: Accepts(c, c.items[k], similar))
  }

  /** Clusters are numbered in creation order and each keeps its invariant. */
  ghost predicate WellFormed(cs: seq<StoryCluster>, similar: TitleTest) {
    forall i | 0 <= i < |cs| :: cs[i].id == i && ClusterInvariant(cs[i], similar)
  }

  /** The cluster a story creates when no existing cluster takes it. */
  function NewCluster(id: nat, s: NewsItem): (c: StoryCluster)
    ensures c.id == id && c.items == [s]
  {
    StoryCluster(
      id, s.title, SummaryOf(s), [s],
      Distribution(
        if s.bias == Some(Left) then 1 else 0,
        if s.bias == Some(Center) then 1 else 0,
        if s.bias == Some(Right) then 1 else 0),
      s.publishedAt)
  }

  /** A new cluster takes its title, summary and anchor from its story and
      counts that story under its label. */
  lemma NewClusterInvariant(id: nat, s: NewsItem, similar: TitleTest)
    ensures ClusterInvariant(NewCluster(id, s), similar)
  {
    var c := NewCluster(id, s);
    forall b: Bias ensures c.distribution.Get(b) == CountBias(c.items, b) {
      CountBiasSingle(s, b);
    }
  }

  lemma CountBiasSingle(s: NewsItem, b: Bias)
    ensures CountBias([s], b) == if s.bias == Some(b) then 1 else 0
  {
    assert [s][..0] == [];
  }

  /** `cluster.items.push(story)` and the count update for its label; the
      anchor, title and summary stay as they were. */
  function AddStory(c: StoryCluster, s: NewsItem): (r: StoryCluster)
    ensures r.items == c.items + [s]
    ensures r.id == c.id && r.mainTitle == c.mainTitle && r.summary == c.summary
    ensures r.firstPublishedAt == c.firstPublishedAt
  {
    c.(items := c.items + [s],
       distribution := if s.bias.Some? then c.distribution.Inc(s.bias.value) else c.distribution)
  }

  /** A story that passed the cluster's tests keeps the invariant. */
  lemma AddStoryKeepsInvariant(c: StoryCluster, s: NewsItem, similar: TitleTest)
    requires ClusterInvariant(c, similar) && Accepts(c, s, similar)
    ensures ClusterInvariant(AddStory(c, s), similar)
  {
    var r := AddStory(c, s);
    forall b: Bias ensures r.distribution.Get(b) == CountBias(r.items, b) {
      CountBiasAppend(c.items, s, b);
    }
    assert forall k | 1 <= k < |c.items| :: r.items[k] == c.items[k];
  }

  /** The index of the first cluster, in creation order, at or after `from`
      that accepts `s`. */
  function FirstFitFrom(cs: seq<StoryCluster>, s: NewsItem, from: nat, similar: TitleTest): (r: Option<nat>)
    requires from <= |cs|
    ensures r.Some? ==> from <= r.value < |cs| && Accepts(cs[r.value], s, similar)
    ensures r.Some? ==> forall j | from <= j < r.value :: !Accepts(cs[j], s, similar)
    ensures r.None? ==> forall j | from <= j < |cs| :: !Accepts(cs[j], s, similar)
    decreases |cs| - from
  {
    if from == |cs| then None
    else if Accepts(cs[from], s, similar) then Some(from)
    else FirstFitFrom(cs, s, from + 1, similar)
  }

  /** One step of the scan: the story joins the first cluster that accepts
      it, or, when none does, starts a new cluster at the end. */
  function Place(cs: seq<StoryCluster>, s: NewsItem, similar: TitleTest): (r: seq<StoryCluster>)
    ensures (forall j | 0 <= j < |cs| :: !Accepts(cs[j], s, similar)) ==> r == cs + [NewCluster(|cs|, s)]
    ensures (exists j | 0 <= j < |cs| :: Accepts(cs[j], s, similar)) ==>
      exists i | 0 <= i < |cs| ::
        && Accepts(cs[i], s, similar)
        && (forall j | 0 <= j < i :: !Accepts(cs[j], s, similar))
        && r == cs[i := AddStory(cs[i], s)]
  {
    match FirstFitFrom(cs, s, 0, similar)
    case Some(i) => cs[i := AddStory(cs[i], s)]
    case None => cs + [NewCluster(|cs|, s)]
  }

  /** Placing a story keeps the clusters well formed. */
  lemma PlaceKeepsWellFormed(cs: seq<StoryCluster>, s: NewsItem, similar: TitleTest)
    requires WellFormed(cs, similar)
    ensures WellFormed(Place(cs, s, similar), similar)
  {
    match FirstFitFrom(cs, s, 0, similar)
    case Some(i) =>
      AddStoryKeepsInvariant(cs[i], s, similar);
    case None =>
      NewClusterInvariant(|cs|, s, similar);
  }

  /** The multiset of all stories held by the clusters. */
  function Members(cs: seq<StoryCluster>): multiset<NewsItem> {
    if cs == [] then multiset{} else Members(cs[..|cs| - 1]) + multiset(cs[|cs| - 1].items)
  }

  /** The sum of all clusters' `items.length`. */
  function TotalItems(cs: seq<StoryCluster>): nat {
    if cs == [] then 0 else TotalItems(cs[..|cs| - 1]) + |cs[|cs| - 1].items|
  }

  lemma {:induction false} TotalItemsCountsMembers(cs: seq<StoryCluster>)
    ensures TotalItems(cs) == |Members(cs)|
  {
    if cs != [] {
      TotalItemsCountsMembers(cs[..|cs| - 1]);
    }
  }

  lemma MembersAppend(cs: seq<StoryCluster>, c: StoryCluster)
    ensures Members(cs + [c]) == Members(cs) + multiset(c.items)
  {
    assert (cs + [c])[..|cs|] == cs;
  }

  /** Replacing one cluster swaps its stories in the multiset of members. */
  lemma {:induction false} MembersUpdate(cs: seq<StoryCluster>, i: nat, c: StoryCluster)
    requires i < |cs|
    ensures Members(cs[i := c]) + multiset(cs[i].items) == Members(cs) + multiset(c.items)
    decreases |cs|
  {
    var n := |cs| - 1;
    if i == n {
      assert cs[i := c][..n] == cs[..n];
    } else {
      assert cs[..n][i] == cs[i];
      MembersUpdate(cs[..n], i, c);
      MembersUpdateBeforeLast(cs, i, c);
    }
  }

  /** The step of `MembersUpdate` for a cluster before the last one. */
  lemma MembersUpdateBeforeLast(cs: seq<StoryCluster>, i: nat, c: StoryCluster)
    requires i < |cs| - 1
    requires Members(cs[..|cs| - 1][i := c]) + multiset(cs[i].items)
             == Members(cs[..|cs| - 1]) + multiset(c.items)
    ensures Members(cs[i := c]) + multiset(cs[i].items) == Members(cs) + multiset(c.items)
  {
    var n := |cs| - 1;
    var cs' := cs[i := c];
    assert cs'[..n] == cs[..n][i := c];
    assert cs'[n] == cs[n];
    SwapUnderUnion(Members(cs'[..n]), Members(cs[..n]), multiset(cs[i].items),
                   multiset(c.items), multiset(cs[n].items));
  }

  /** A story placed by `Place` is added to the members, and nothing else. */
  lemma PlaceAddsStory(cs: seq<StoryCluster>, s: NewsItem, similar: TitleTest)
    ensures Members(Place(cs, s, similar)) == Members(cs) + multiset{s}
    ensures |Place(cs, s, similar)| <= |cs| + 1
  {
    match FirstFitFrom(cs, s, 0, similar)
    case Some(i) =>
      var c := AddStory(cs[i], s);
      assert Place(cs, s, similar) == cs[i := c];
      MembersUpdate(cs, i, c);
      assert multiset(c.items) == multiset(cs[i].items) + multiset{s};
      MultisetCancel(Members(cs[i := c]), Members(cs) + multiset{s}, multiset(cs[i].items));
    case None =>
      var c := NewCluster(|cs|, s);
      assert Place(cs, s, similar) == cs + [c];
      MembersAppend(cs, c);
  }

  /** The loop `for (const story of sortedStories)` over a list already in
      scan order. */
  function Assign(stories: seq<NewsItem>, similar: TitleTest): (r: seq<StoryCluster>)
    ensures |r| <= |stories|
    ensures r == [] <==> stories == []
  {
    if stories == [] then []
    else Place(Assign(stories[..|stories| - 1], similar), stories[|stories| - 1], similar)
  }

  /** The clusters partition the stories: every story lands in exactly one
      cluster, as many times as it occurs in the input. */
  lemma {:induction false} AssignPartitions(stories: seq<NewsItem>, similar: TitleTest)
    ensures Members(Assign(stories, similar)) == multiset(stories)
    ensures |Assign(stories, similar)| <= |stories|
  {
    if stories != [] {
      var init := stories[..|stories| - 1];
      var last := stories[|stories| - 1];
      var before := Assign(init, similar);
      assert Assign(stories, similar) == Place(before, last, similar);
      AssignPartitions(init, similar);
      PlaceAddsStory(before, last, similar);
      MultisetOfSnoc(stories);
    }
  }

  /** Every cluster the scan builds keeps its invariant. */
  lemma {:induction false} AssignWellFormed(stories: seq<NewsItem>, similar: TitleTest)
    ensures WellFormed(Assign(stories, similar), similar)
  {
    if stories != [] {
      var init := stories[..|stories| - 1];
      AssignWellFormed(init, similar);
      PlaceKeepsWellFormed(Assign(init, similar), stories[|stories| - 1], similar);
    }
  }

  /** A story with a `NaN` date passes no cluster's window, so it always
      starts a cluster of its own. */
  lemma UndatedStartsCluster(cs: seq<StoryCluster>, s: NewsItem, similar: TitleTest)
    requires s.publishedAt.None?
    ensures Place(cs, s, similar) == cs + [NewCluster(|cs|, s)]
  {
  }

  /** A cluster anchored at a `NaN` date never takes a second story. */
  lemma UndatedClusterIsSingleton(c: StoryCluster, similar: TitleTest)
    requires ClusterInvariant(c, similar)
    ensures c.firstPublishedAt.None? ==> |c.items| == 1
  {
    if |c.items| > 1 {
      assert Accepts(c, c.items[1], similar);
    }
  }

  /** Every later member of a cluster lies strictly within 48 hours of the
      anchor and was similar to the cluster's title. */
  lemma MembersNearAnchor(c: StoryCluster, similar: TitleTest, k: nat)
    requires ClusterInvariant(c, similar) && 1 <= k < |c.items|
    ensures c.items[k].publishedAt.Some? && c.items[0].publishedAt.Some?
    ensures -WindowMs < c.items[k].publishedAt.value - c.items[0].publishedAt.value < WindowMs
    ensures similar(c.items[k].title, c.items[0].title)
  {
    assert Accepts(c, c.items[k], similar);
  }

  /** When every story carries a label, the three counts add up to the
      number of stories in the cluster. */
  lemma DistributionCountsLabelled(c: StoryCluster, similar: TitleTest)
    requires ClusterInvariant(c, similar) && AllLabelled(c.items)
    ensures c.distribution.Total() == |c.items|
  {
    CountsCoverItems(c.items);
    assert c.distribution.Get(Left) == CountBias(c.items, Left);
    assert c.distribution.Get(Center) == CountBias(c.items, Center);
    assert c.distribution.Get(Right) == CountBias(c.items, Right);
  }

  /** The clusters hold as many stories as the scan was given. */
  lemma AssignCountsStories(stories: seq<NewsItem>, similar: TitleTest)
    ensures TotalItems(Assign(stories, similar)) == |stories|
  {
    AssignPartitions(stories, similar);
    TotalItemsCountsMembers(Assign(stories, similar));
  }

  /** Each story of each cluster is one of the members. */
  lemma {:induction false} MemberOfCluster(cs: seq<StoryCluster>, i: nat, k: nat)
    requires i < |cs| && k < |cs[i].items|
    ensures cs[i].items[k] in Members(cs)
  {
    var n := |cs| - 1;
    if i == n {
      assert cs[i].items[k] in multiset(cs[n].items);
    } else {
      assert cs[..n][i] == cs[i];
      MemberOfCluster(cs[..n], i, k);
    }
  }
}

=== FILE: dedup.dfy ===
/** `Array.from(new Map(s.map(x => [key(x), x])).values())`: a JavaScript
    `Map` built from key/value pairs remembers the order in which keys were
    first inserted, and `set` on a key already present replaces its value
    in place. */
module Dedup {
  import opened Wrappers
  import opened Seqs

  /** The first position whose element has key `k`. */
  function IndexOfKey<T, K(==)>(s: seq<T>, key: T -> K, k: K): (r: Option<nat>)
    ensures r.Some? ==> r.value < |s| && key(s[r.value]) == k
    ensures r.Some? ==> forall j | 0 <= j < r.value :: key(s[j]) != k
    ensures r.None? ==> forall j | 0 <= j < |s| :: key(s[j]) != k
  {
    if s == [] then None
    else if key(s[0]) == k then Some(0)
    else match IndexOfKey(s[1..], key, k)
      case None => None
      case Some(i) => Some(i + 1)
  }

  /** `map.set(key(x), x)`: keys stay in place, the entry already holding
      `x`'s key is replaced by `x`, and `x` goes last exactly when its key is
      new; other entries are untouched, and distinct keys stay distinct. */
  function MapSet<T, K(==)>(entries: seq<T>, key: T -> K, x: T): (r: seq<T>)
    ensures |entries| <= |r| <= |entries| + 1
    ensures |r| == |entries| + 1 <==> forall i | 0 <= i < |entries| :: key(entries[i]) != key(x)
    ensures forall i | 0 <= i < |entries| :: key(r[i]) == key(entries[i])
    ensures forall i | 0 <= i < |entries| && key(entries[i]) != key(x) :: r[i] == entries[i]
    ensures forall i | |entries| <= i < |r| :: r[i] == x
    ensures exists i | 0 <= i < |r| :: r[i] == x
    ensures DistinctKeys(entries, key) ==>
      forall i | 0 <= i < |entries| && key(entries[i]) == key(x) :: r[i] == x
    ensures DistinctKeys(entries, key) ==> DistinctKeys(r, key)
  {
    match IndexOfKey(entries, key, key(x))
    case Some(i) =>
      var r := entries[i := x];
      assert r[i] == x;
      r
    case None =>
      var r := entries + [x];
      assert r[|entries|] == x;
      r
  }

  /** The map's values, in key-insertion order, after setting every
      element of `s` in turn. */
  function DedupBy<T, K(==)>(s: seq<T>, key: T -> K): (r: seq<T>)
    ensures |r| <= |s|
  {
    if s == [] then []
    else MapSet(DedupBy(s[..|s| - 1], key), key, s[|s| - 1])
  }

  predicate DistinctKeys<T, K(==)>(s: seq<T>, key: T -> K) {
    forall i, j | 0 <= i < j < |s| :: key(s[i]) != key(s[j])
  }

  /** No later element has the key of the one at `k`. */
  predicate LastWithKey<T, K(==)>(s: seq<T>, key: T -> K, k: nat)
    requires k < |s|
  {
    forall j | k < j < |s| :: key(s[j]) != key(s[k])
  }

  /** The entries hold distinct keys. */
  lemma {:induction false} DedupDistinct<T, K>(s: seq<T>, key: T -> K)
    ensures DistinctKeys(DedupBy(s, key), key)
  {
    if s != [] {
      DedupDistinct(s[..|s| - 1], key);
    }
  }

  /** Every key of `s` has an entry in `r`. */
  predicate CoversKeys<T, K(==)>(r: seq<T>, s: seq<T>, key: T -> K) {
    forall k | 0 <= k < |s| :: exists i | 0 <= i < |r| :: key(r[i]) == key(s[k])
  }

  /** Every entry of `r` is an element of `s` that no later element of `s`
      shares a key with. */
  ghost predicate LastOfEachKey<T, K>(r: seq<T>, s: seq<T>, key: T -> K) {
    forall i | 0 <= i < |r| :: exists k | 0 <= k < |s| :: s[k] == r[i] && LastWithKey(s, key, k)
  }

  /** Every key of the input has an entry. */
  lemma {:induction false} DedupCoversKeys<T, K>(s: seq<T>, key: T -> K)
    ensures CoversKeys(DedupBy(s, key), s, key)
  {
    if s != [] {
      var n := |s| - 1;
      var init := s[..n];
      DedupCoversKeys(init, key);
      DedupDistinct(init, key);
      var before := DedupBy(init, key);
      var r := DedupBy(s, key);
      assert r == MapSet(before, key, s[n]);
      forall k | 0 <= k < |s| ensures exists i | 0 <= i < |r| :: key(r[i]) == key(s[k]) {
        if k < n {
          assert s[k] == init[k];
          var i :| 0 <= i < |before| && key(before[i]) == key(init[k]);
          assert key(r[i]) == key(before[i]);
        } else {
          var i :| 0 <= i < |r| && r[i] == s[n];
        }
      }
    }
  }

  /** Every entry is the last element of the input with its key: a later
      duplicate overwrites an earlier one. */
  lemma {:induction false} DedupLastWins<T, K>(s: seq<T>, key: T -> K)
    ensures LastOfEachKey(DedupBy(s, key), s, key)
  {
    if s != [] {
      var n := |s| - 1;
      var init, last := s[..n], s[n];
      DedupLastWins(init, key);
      DedupDistinct(init, key);
      var before := DedupBy(init, key);
      var r := DedupBy(s, key);
      assert r == MapSet(before, key, last);
      forall i | 0 <= i < |r| ensures exists k | 0 <= k < |s| :: s[k] == r[i] && LastWithKey(s, key, k) {
        if i < |before| && key(before[i]) != key(last) {
          assert r[i] == before[i];
          var k :| 0 <= k < |init| && init[k] == before[i] && LastWithKey(init, key, k);
          assert s[k] == init[k];
        } else {
          assert r[i] == last;
          assert LastWithKey(s, key, n);
        }
      }
    }
  }

  /** Every entry is an element of the input. */
  lemma DedupFromInput<T, K>(s: seq<T>, key: T -> K)
    ensures forall x | x in DedupBy(s, key) :: x in s
  {
    DedupLastWins(s, key);
    var r := DedupBy(s, key);
    forall x | x in r ensures x in s {
      var i :| 0 <= i < |r| && r[i] == x;
      var k :| 0 <= k < |s| && s[k] == r[i] && LastWithKey(s, key, k);
    }
  }

  /** When the keys are already distinct nothing is dropped or moved. */
  lemma {:induction false} DedupOfDistinct<T, K>(s: seq<T>, key: T -> K)
    requires DistinctKeys(s, key)
    ensures DedupBy(s, key) == s
  {
    if s != [] {
      var n := |s| - 1;
      var init := s[..n];
      assert DistinctKeys(init, key) by {
        forall i | 0 <= i < n ensures init[i] == s[i] { }
      }
      DedupOfDistinct(init, key);
      assert forall j | 0 <= j < n :: key(init[j]) != key(s[n]) by {
        forall j | 0 <= j < n ensures key(init[j]) != key(s[n]) {
          assert init[j] == s[j];
        }
      }
      SnocSplit(s);
    }
  }

  /** Entries keep the order in which their keys first appear. */
  lemma {:induction false} DedupKeepsFirstOrder<T, K>(s: seq<T>, key: T -> K)
    ensures forall i | 0 <= i < |DedupBy(s, key)| :: IndexOfKey(s, key, key(DedupBy(s, key)[i])).Some?
    ensures forall i, j | 0 <= i < j < |DedupBy(s, key)| ::
      IndexOfKey(s, key, key(DedupBy(s, key)[i])).value < IndexOfKey(s, key, key(DedupBy(s, key)[j])).value
  {
    if s != [] {
      var n := |s| - 1;
      var init, last := s[..n], s[n];
      DedupKeepsFirstOrder(init, key);
      DedupDistinct(init, key);
      var before := DedupBy(init, key);
      var r := DedupBy(s, key);
      SnocSplit(s);
      forall i | 0 <= i < |before| ensures IndexOfKey(s, key, key(r[i])) == IndexOfKey(init, key, key(before[i])) {
        IndexOfKeySnoc(init, key, last, key(before[i]));
      }
      assert r == MapSet(before, key, last);
      if |r| == |before| + 1 {
        DedupCoversKeys(init, key);
        IndexOfNewKey(init, key, last, before);
      }
    }
  }

  /** Appending an element does not move the first position of a key that
      already occurs. */
  lemma {:induction false} IndexOfKeySnoc<T, K>(s: seq<T>, key: T -> K, x: T, k: K)
    requires IndexOfKey(s, key, k).Some?
    ensures IndexOfKey(s + [x], key, k) == IndexOfKey(s, key, k)
  {
    if key(s[0]) != k {
      ConcatTail(s, [x]);
      IndexOfKeySnoc(s[1..], key, x, k);
    }
  }

  /** A key new to `s` first occurs at the appended position. */
  lemma IndexOfNewKey<T, K>(s: seq<T>, key: T -> K, x: T, entries: seq<T>)
    requires forall i | 0 <= i < |entries| :: key(entries[i]) != key(x)
    requires CoversKeys(entries, s, key)
    ensures IndexOfKey(s + [x], key, key(x)) == Some(|s|)
  {
    var t := s + [x];
    assert key(t[|s|]) == key(x);
    forall j | 0 <= j < |s| ensures key(t[j]) != key(x) {
      assert t[j] == s[j];
      var i :| 0 <= i < |entries| && key(entries[i]) == key(s[j]);
    }
    IndexOfKeyIsFirst(t, key, key(x), |s|);
  }

  lemma {:induction false} IndexOfKeyIsFirst<T, K>(s: seq<T>, key: T -> K, k: K, p: nat)
    requires p < |s| && key(s[p]) == k && forall j | 0 <= j < p :: key(s[j]) != k
    ensures IndexOfKey(s, key, k) == Some(p)
  {
    if p > 0 {
      assert key(s[0]) != k;
      assert forall j | 0 <= j < p - 1 :: s[1..][j] == s[j + 1];
      IndexOfKeyIsFirst(s[1..], key, k, p - 1);
    }
  }
}

=== FILE: news_route.dfy ===
/** The article pipeline of `GET` (src/app/api/news/route.ts): deduplicate
    the fetched articles by URL, keep the usable ones, shape them as
    `NewsItem`s, cluster them, and keep only the clusters that at least two
    leanings cover. */
module NewsRoute {
  import opened Wrappers
  import opened Text
  import opened Seqs
  import opened Dedup
  import opened Stories
  import opened Clustering
  import opened Analyzer

  /** One element of the NewsAPI `articles` array, as far as the route reads
      it. A field that is `null` or missing is `None`; `publishedAt` is the
      instant its ISO string denotes, or `None` when it does not parse. */
  datatype Article = Article(
    url: string,
    title: Option<string>,
    sourceName: Option<string>,
    publishedAt: Option<int>,
    description: Option<string>,
    urlToImage: Option<string>)

  // ---------------------------------------------------------------------
  // Deduplication by URL
  // ---------------------------------------------------------------------

  function UrlOf(a: Article): string {
    a.url
  }

  /** `Array.from(new Map(articles.map(item => [item.url, item])).values())`. */
  function DedupByUrl(articles: seq<Article>): (r: seq<Article>)
    ensures |r| <= |articles|
  {
    DedupBy(articles, UrlOf)
  }

  /** Each URL is kept once, with the last article that has it. */
  lemma DedupByUrlKeepsLast(articles: seq<Article>)
    ensures DistinctKeys(DedupByUrl(articles), UrlOf)
    ensures CoversKeys(DedupByUrl(articles), articles, UrlOf)
    ensures LastOfEachKey(DedupByUrl(articles), articles, UrlOf)
  {
    DedupDistinct(articles, UrlOf);
    DedupCoversKeys(articles, UrlOf);
    DedupLastWins(articles, UrlOf);
  }

  /** The kept articles are in the order their URLs first appeared. */
  lemma DedupByUrlKeepsOrder(articles: seq<Article>)
    ensures forall i | 0 <= i < |DedupByUrl(articles)| ::
      IndexOfKey(articles, UrlOf, UrlOf(DedupByUrl(articles)[i])).Some?
    ensures forall i, j | 0 <= i < j < |DedupByUrl(articles)| ::
      IndexOfKey(articles, UrlOf, UrlOf(DedupByUrl(articles)[i])).value <
      IndexOfKey(articles, UrlOf, UrlOf(DedupByUrl(articles)[j])).value
  {
    DedupKeepsFirstOrder(articles, UrlOf);
  }

  /** A list whose URLs are already distinct passes through unchanged. */
  lemma DedupByUrlOfDistinct(articles: seq<Article>)
    requires DistinctKeys(articles, UrlOf)
    ensures DedupByUrl(articles) == articles
  {
    DedupOfDistinct(articles, UrlOf);
  }

  // ---------------------------------------------------------------------
  // Filter and transform
  // ---------------------------------------------------------------------

  /** A truthy title and source name, and a title other than the
      placeholder NewsAPI puts on removed articles. */
  predicate Usable(a: Article) {
    && a.title.Some? && a.title.value != []
    && a.sourceName.Some? && a.sourceName.value != []
    && a.title.value != "[Removed]"
  }

  const Dash: string := " - "

  predicate IsPrefix(p: string, s: string) {
    |p| <= |s| && s[..|p|] == p
  }

  /** The item built from one article: the headline before the first " - "
      (NewsAPI appends " - Outlet" to titles), and the other fields as they
      are. The title is cut exactly when it contains " - ". */
  function ToNewsItem(a: Article): (r: NewsItem)
    requires Usable(a)
    ensures r.url == a.url && r.source == a.sourceName.value
    ensures r.publishedAt == a.publishedAt && r.description == a.description
    ensures r.urlToImage == a.urlToImage && r.bias.None?
    ensures IsPrefix(r.title, a.title.value) && !Contains(r.title, Dash)
    ensures r.title == a.title.value <==> !Contains(a.title.value, Dash)
    ensures |r.title| < |a.title.value| ==> OccursAt(a.title.value, Dash, |r.title|)
  {
    var sep := Dash;
    BeforeFirstHasNoSeparator(a.title.value, sep);
    BeforeFirstWithoutSeparator(a.title.value, sep);
    NewsItem(a.url, BeforeFirst(a.title.value, sep), a.sourceName.value,
             a.publishedAt, a.description, a.urlToImage, None)
  }

  function ToNewsItems(articles: seq<Article>): (r: seq<NewsItem>)
    requires forall i | 0 <= i < |articles| :: Usable(articles[i])
    ensures |r| == |articles|
    ensures forall i | 0 <= i < |r| :: r[i] == ToNewsItem(articles[i])
  {
    seq(|articles|, i requires 0 <= i < |articles| => ToNewsItem(articles[i]))
  }

  /** `.filter(..).map(..)`: the usable articles, in order, as items. */
  function Transform(articles: seq<Article>): (r: seq<NewsItem>)
    ensures |r| <= |articles|
  {
    var kept := Filter(articles, Usable);
    FilterKeepsPassing(articles, Usable);
    ToNewsItems(kept)
  }

  /** Exactly the usable articles are kept, in order, and every item comes
      from one of them. */
  lemma TransformKeepsUsable(articles: seq<Article>)
    ensures forall a :: a in Filter(articles, Usable) <==> a in articles && Usable(a)
    ensures IsSubsequence(Filter(articles, Usable), articles)
    ensures forall i | 0 <= i < |Transform(articles)| ::
      exists a | a in articles && Usable(a) :: Transform(articles)[i] == ToNewsItem(a)
  {
    FilterKeepsPassing(articles, Usable);
    var kept := Filter(articles, Usable);
    var r := Transform(articles);
    assert r == ToNewsItems(kept);
    forall i | 0 <= i < |r|
      ensures exists a | a in articles && Usable(a) :: r[i] == ToNewsItem(a)
    {
      assert kept[i] in kept;
      assert r[i] == ToNewsItem(kept[i]);
    }
  }

  /** The items are the usable articles, one for one and in their order,
      each turned into an item. */
  lemma TransformIsMappedFilter(articles: seq<Article>)
    ensures |Transform(articles)| == |Filter(articles, Usable)|
    ensures forall i | 0 <= i < |Transform(articles)| ::
      Usable(Filter(articles, Usable)[i]) && Transform(articles)[i] == ToNewsItem(Filter(articles, Usable)[i])
  {
    FilterKeepsPassing(articles, Usable);
    assert Transform(articles) == ToNewsItems(Filter(articles, Usable));
  }

  /** No usable article is lost: each one has its item in the output. */
  lemma TransformComplete(articles: seq<Article>)
    ensures forall a | a in articles && Usable(a) :: ToNewsItem(a) in Transform(articles)
  {
    FilterKeepsPassing(articles, Usable);
    TransformIsMappedFilter(articles);
    var kept := Filter(articles, Usable);
    var r := Transform(articles);
    forall a | a in articles && Usable(a)
      ensures ToNewsItem(a) in r
    {
      assert a in kept;
      var j :| 0 <= j < |kept| && kept[j] == a;
      assert r[j] == ToNewsItem(a);
    }
  }

  // ---------------------------------------------------------------------
  // Intersection filtering
  // ---------------------------------------------------------------------

  /** At least two of the three counts of `biasDistribution` are positive. */
  predicate Diverse(c: StoryCluster) {
    c.distribution.Covered() >= 2
  }

  /** `if (clusters.length > 0) clusters = clusters.filter(..)`. There is no
      fallback: when no cluster qualifies the result is empty. */
  function IntersectionFilter(cs: seq<StoryCluster>): (r: seq<StoryCluster>)
    ensures |r| <= |cs|
  {
    if |cs| > 0 then Filter(cs, Diverse) else cs
  }

  /** The filter keeps exactly the diverse clusters, in order. */
  lemma IntersectionKeepsDiverse(cs: seq<StoryCluster>)
    ensures forall c :: c in IntersectionFilter(cs) <==> c in cs && Diverse(c)
    ensures IsSubsequence(IntersectionFilter(cs), cs)
  {
    FilterKeepsPassing(cs, Diverse);
  }

  /** When every story of a cluster is counted, two leanings need two
      stories: a cluster with one story is never kept. */
  lemma DiverseHasTwo(c: StoryCluster)
    requires c.distribution.Total() == |c.items|
    ensures Diverse(c) ==> |c.items| >= 2
  {
  }

  /** The clusters the filter keeps, when every cluster counts all its
      stories. */
  lemma KeptHaveTwo(cs: seq<StoryCluster>, c: StoryCluster)
    requires forall i | 0 <= i < |cs| :: cs[i].distribution.Total() == |cs[i].items|
    requires c in IntersectionFilter(cs)
    ensures c in cs && Diverse(c) && |c.items| >= 2
  {
    IntersectionKeepsDiverse(cs);
    var i :| 0 <= i < |cs| && cs[i] == c;
    DiverseHasTwo(c);
  }

  /** No fallback: when no cluster is diverse, nothing is returned. */
  lemma NoneKept(cs: seq<StoryCluster>)
    requires forall c | c in cs :: !Diverse(c)
    ensures IntersectionFilter(cs) == []
  {
    if |cs| > 0 {
      FilterNonePass(cs, Diverse);
    }
  }

  // ---------------------------------------------------------------------
  // The whole pipeline
  // ---------------------------------------------------------------------

  /** The stories `GET` hands to `clusterStories`. */
  function Pipeline(articles: seq<Article>): (r: seq<NewsItem>)
    ensures |r| <= |articles|
  {
    Transform(DedupByUrl(articles))
  }

  /** `GET`'s article pipeline: the clusters it returns as `{ clusters }`. */
  function News(articles: seq<Article>): (r: seq<StoryCluster>)
    ensures |r| <= |articles|
  {
    IntersectionFilter(ClusterStories(Pipeline(articles)))
  }

  /** Every cluster the route returns is one `clusterStories` built, and
      has at least two stories from at least two leanings. */
  lemma NewsClustersAreDiverse(articles: seq<Article>, c: StoryCluster)
    requires c in News(articles)
    ensures c in ClusterStories(Pipeline(articles))
    ensures Diverse(c) && |c.items| >= 2
  {
    var cs := ClusterStories(Pipeline(articles));
    ClusterStoriesAllCounted(Pipeline(articles));
    KeptHaveTwo(cs, c);
  }

  /** When no cluster is diverse the route returns none. */
  lemma NoFallback(articles: seq<Article>)
    requires forall c | c in ClusterStories(Pipeline(articles)) :: !Diverse(c)
    ensures News(articles) == []
  {
    NoneKept(ClusterStories(Pipeline(articles)));
  }

  /** Every story the route returns is a usable input article, shaped as an
      item and labelled with its outlet's leaning. */
  lemma NewsStoriesFromArticles(articles: seq<Article>, c: StoryCluster, x: NewsItem)
    requires c in News(articles) && x in c.items
    ensures exists a | a in articles && Usable(a) :: x == Enrich(ToNewsItem(a))
  {
    var stories := Pipeline(articles);
    NewsClustersAreDiverse(articles, c);
    ClusterMemberIsLabelled(stories, c, x);
    var j :| 0 <= j < |stories| && x == Enrich(stories[j]);
    var a := StoryFromArticle(articles, j);
    assert x == Enrich(ToNewsItem(a));
  }

  /** The article behind one story of the pipeline. */
  lemma StoryFromArticle(articles: seq<Article>, j: nat) returns (a: Article)
    requires j < |Pipeline(articles)|
    ensures a in articles && Usable(a) && Pipeline(articles)[j] == ToNewsItem(a)
  {
    var kept := DedupByUrl(articles);
    TransformKeepsUsable(kept);
    a :| a in kept && Usable(a) && Transform(kept)[j] == ToNewsItem(a);
    DedupFromInput(articles, UrlOf);
  }

  /** With one article or none there is never a cluster to show: a story
      covered by a single outlet is filtered out and nothing replaces it. */
  lemma LoneArticleShowsNothing(articles: seq<Article>)
    requires |articles| <= 1
    ensures News(articles) == []
  {
    var stories := Pipeline(articles);
    ClusterStoriesPartitions(stories);
    ClusterStoriesAllCounted(stories);
    AtMostOneStoryNotKept(ClusterStories(stories));
  }

  /** Clusters holding one story in all are all dropped. */
  lemma AtMostOneStoryNotKept(cs: seq<StoryCluster>)
    requires |cs| <= 1 && TotalItems(cs) <= 1
    requires forall i | 0 <= i < |cs| :: cs[i].distribution.Total() == |cs[i].items|
    ensures IntersectionFilter(cs) == []
  {
    forall c | c in cs ensures !Diverse(c) {
      assert cs == [c];
      assert cs[..0] == [];
      DiverseHasTwo(c);
    }
    NoneKept(cs);
  }
}

=== FILE: seqs.dfy ===
/** Facts about sequence slicing and concatenation, stated once for every
    element type so that proofs about strings and records do not have to
    rediscover them. */
module Seqs {

  lemma ConcatTail<T>(p: seq<T>, s: seq<T>)
    requires p != []
    ensures (p + s)[0] == p[0]
    ensures (p + s)[1..] == p[1..] + s
  {
  }

  lemma ConcatInit<T>(s: seq<T>, q: seq<T>)
    requires q != []
    ensures (s + q)[|s + q| - 1] == q[|q| - 1]
    ensures (s + q)[..|s + q| - 1] == s + q[..|q| - 1]
  {
  }

  lemma ConcatEmpty<T>(s: seq<T>)
    ensures [] + s == s && s + [] == s
  {
  }

  lemma SnocSplit<T>(s: seq<T>)
    requires s != []
    ensures s == s[..|s| - 1] + [s[|s| - 1]]
  {
  }

  lemma MultisetOfSnoc<T>(s: seq<T>)
    requires s != []
    ensures multiset(s) == multiset(s[..|s| - 1]) + multiset{s[|s| - 1]}
  {
    assert s == s[..|s| - 1] + [s[|s| - 1]];
  }

  lemma ConsSplit<T>(s: seq<T>)
    requires s != []
    ensures s == [s[0]] + s[1..]
  {
  }

  lemma ConsMultiset<T>(s: seq<T>)
    requires s != []
    ensures multiset(s) == multiset{s[0]} + multiset(s[1..])
  {
    ConsSplit(s);
  }

  lemma SwapUnderUnion<T>(x: multiset<T>, y: multiset<T>, a: multiset<T>, b: multiset<T>, m: multiset<T>)
    requires x + a == y + b
    ensures (x + m) + a == (y + m) + b
  {
    forall e ensures ((x + m) + a)[e] == ((y + m) + b)[e] {
      assert (x + a)[e] == (y + b)[e];
    }
  }

  lemma MultisetCancel<T>(x: multiset<T>, y: multiset<T>, a: multiset<T>)
    requires x + a == y + a
    ensures x == y
  {
    forall e ensures x[e] == y[e] {
      assert (x + a)[e] == (y + a)[e];
    }
  }

  /** `a` is `b` with some elements left out, the others in order. */
  predicate IsSubsequence<T(==)>(a: seq<T>, b: seq<T>)
    decreases |b|
  {
    if a == [] then true
    else if b == [] then false
    else if a[|a| - 1] == b[|b| - 1] then IsSubsequence(a[..|a| - 1], b[..|b| - 1])
    else IsSubsequence(a, b[..|b| - 1])
  }

  /** `Array.prototype.filter`. */
  function Filter<T>(s: seq<T>, p: T -> bool): (r: seq<T>)
    ensures |r| <= |s|
  {
    if s == [] then []
    else Filter(s[..|s| - 1], p) + (if p(s[|s| - 1]) then [s[|s| - 1]] else [])
  }

  /** The filter keeps exactly the elements that pass, in their order. */
  lemma {:induction false} FilterKeepsPassing<T>(s: seq<T>, p: T -> bool)
    ensures forall x :: x in Filter(s, p) <==> x in s && p(x)
    ensures IsSubsequence(Filter(s, p), s)
  {
    if s != [] {
      var init, last := s[..|s| - 1], s[|s| - 1];
      FilterKeepsPassing(init, p);
      assert s == init + [last];
      var f := Filter(s, p);
      if p(last) {
        assert f == Filter(init, p) + [last];
        assert f[..|f| - 1] == Filter(init, p);
      } else {
        assert f == Filter(init, p);
        SubsequenceOfInit(f, s);
      }
    }
  }

  /** A subsequence of all but the last element is a subsequence. */
  lemma {:induction false} SubsequenceOfInit<T>(a: seq<T>, b: seq<T>)
    requires b != [] && IsSubsequence(a, b[..|b| - 1])
    ensures IsSubsequence(a, b)
    decreases 2 * |b|
  {
    if a != [] && a[|a| - 1] == b[|b| - 1] {
      SubsequenceDropLast(a, b[..|b| - 1]);
    }
  }

  /** Leaving out the last element of a subsequence keeps it one. */
  lemma {:induction false} SubsequenceDropLast<T>(a: seq<T>, b: seq<T>)
    requires a != [] && IsSubsequence(a, b)
    ensures IsSubsequence(a[..|a| - 1], b)
    decreases 2 * |b| + 1
  {
    var a' := a[..|a| - 1];
    if a' != [] {
      var b' := b[..|b| - 1];
      if a[|a| - 1] != b[|b| - 1] {
        SubsequenceDropLast(a, b');
      }
      SubsequenceOfInit(a', b);
    }
  }

  lemma {:induction false} FilterNonePass<T>(s: seq<T>, p: T -> bool)
    requires forall i | 0 <= i < |s| :: !p(s[i])
    ensures Filter(s, p) == []
  {
    if s != [] {
      FilterNonePass(s[..|s| - 1], p);
    }
  }

  /** Every element passes, so the filter keeps the whole sequence. */
  lemma {:induction false} FilterAllPass<T>(s: seq<T>, p: T -> bool)
    requires forall x | x in s :: p(x)
    ensures Filter(s, p) == s
  {
    if s != [] {
      assert forall x | x in s[..|s| - 1] :: x in s;
      FilterAllPass(s[..|s| - 1], p);
    }
  }

  /** Filtering a concatenation filters each part. */
  lemma {:induction false} FilterAppend<T>(a: seq<T>, b: seq<T>, p: T -> bool)
    ensures Filter(a + b, p) == Filter(a, p) + Filter(b, p)
    decreases |b|
  {
    if b == [] {
      assert a + b == a;
    } else {
      var b', last := b[..|b| - 1], b[|b| - 1];
      ConcatInit(a, b);
      FilterAppend(a, b', p);
      var tail := if p(last) then [last] else [];
      assert Filter(a + b, p) == Filter(a, p) + Filter(b', p) + tail;
      assert Filter(b, p) == Filter(b', p) + tail;
    }
  }

  /** Filtering from the front: the first element, then the rest. */
  lemma FilterCons<T>(x: T, s: seq<T>, p: T -> bool)
    ensures Filter([x] + s, p) == (if p(x) then [x] else []) + Filter(s, p)
  {
    FilterAppend([x], s, p);
    var head := if p(x) then [x] else [];
    assert [x][..0] == [];
    assert Filter([x], p) == Filter([], p) + head;
    assert Filter([], p) + head == head;
  }
}

=== FILE: similarity.dfy ===
/** `jaccardSimilarity` and its `clean` tokenizer (src/lib/analyzer.ts). */
module Similarity {
  import opened Seqs
  import opened Text

  /** The characters `.replace(/[^\w\s]/g, '')` keeps: word characters and
      whitespace. */
  predicate Kept(c: char) {
    IsWordChar(c) || IsSpace(c)
  }

  /** `.replace(/[^\w\s]/g, '')`: every character that is neither a word
      character nor whitespace is deleted, and the others stay in order. */
  function StripPunctuation(s: string): (r: string)
    ensures r == Filter(s, Kept)
    ensures forall c | c in r :: c in s && Kept(c)
    ensures forall c | c in s && Kept(c) :: c in r
  {
    if s == [] then []
    else
      var rest := StripPunctuation(s[1..]);
      assert forall c | c in s :: c == s[0] || c in s[1..];
      FilterCons(s[0], s[1..], Kept);
      assert s == [s[0]] + s[1..];
      if Kept(s[0]) then [s[0]] + rest else rest
  }

  /** The length of the run of non-whitespace characters `s` starts with. */
  function WordLength(s: string): (n: nat)
    requires s != [] && !IsSpace(s[0])
    ensures 1 <= n <= |s|
    ensures forall i | 0 <= i < n :: !IsSpace(s[i])
    ensures n < |s| ==> IsSpace(s[n])
  {
    if |s| == 1 || IsSpace(s[1]) then 1 else 1 + WordLength(s[1..])
  }

  /** A word of `s` starts at `i`: a non-whitespace character at the start
      of `s` or right after whitespace. */
  predicate WordStart(s: string, i: int) {
    0 <= i < |s| && !IsSpace(s[i]) && (i == 0 || IsSpace(s[i - 1]))
  }

  /** The maximal run of non-whitespace characters starting at `i`. */
  function WordAt(s: string, i: int): (w: string)
    requires WordStart(s, i)
    ensures w != [] && |w| <= |s| - i
  {
    s[i..i + WordLength(s[i..])]
  }

  /** `.split(/\s+/)` with the empty strings it yields at either end left
      out (they are shorter than any token): the maximal runs of
      non-whitespace characters, in order. */
  function Words(s: string): (r: seq<string>)
    ensures forall w | w in r :: w != []
    decreases |s|
  {
    if s == [] then []
    else if IsSpace(s[0]) then Words(s[1..])
    else
      var n := WordLength(s);
      [s[..n]] + Words(s[n..])
  }

  /** `clean`: the set of lower-cased, punctuation-free words longer than
      two characters. */
  function Tokens(s: string): (r: set<string>)
    ensures forall w | w in r :: |w| > 2
  {
    set w | w in Words(StripPunctuation(Lower(s))) && |w| > 2
  }

  /** Every maximal run of non-whitespace characters is one of the words. */
  lemma {:induction false} WordsComplete(s: string, i: int)
    requires WordStart(s, i)
    ensures WordAt(s, i) in Words(s)
    decreases |s|
  {
    if IsSpace(s[0]) {
      DroppedWord(s, 1, i);
      WordsComplete(s[1..], i - 1);
    } else if i != 0 {
      var n := WordLength(s);
      assert i - 1 >= n;
      DroppedWord(s, n, i);
      WordsComplete(s[n..], i - n);
    } else {
      assert s[0..] == s;
    }
  }

  /** A word of `s` at or after `m` is a word of `s[m..]`. */
  lemma DroppedWord(s: string, m: nat, i: int)
    requires WordStart(s, i) && m <= i
    ensures WordStart(s[m..], i - m) && WordAt(s[m..], i - m) == WordAt(s, i)
  {
    var u := s[m..];
    assert u[i - m] == s[i];
    if i - m != 0 {
      assert u[i - m - 1] == s[i - 1];
    }
    assert u[i - m..] == s[i..];
  }

  /** Every word is a maximal run of non-whitespace characters. With
      `WordsComplete`, the words are exactly those runs. */
  lemma {:induction false} WordsSound(s: string)
    ensures forall w | w in Words(s) :: exists i | WordStart(s, i) :: w == WordAt(s, i)
    decreases |s|
  {
    if s == [] {
    } else if IsSpace(s[0]) {
      var t := s[1..];
      WordsSound(t);
      forall w | w in Words(s) ensures exists i | WordStart(s, i) :: w == WordAt(s, i) {
        assert Words(s) == Words(t);
        assert w in Words(t);
        var j :| WordStart(t, j) && w == WordAt(t, j);
        ShiftedWord(s, 1, j);
      }
    } else {
      var n := WordLength(s);
      var u := s[n..];
      WordsSound(u);
      forall w | w in Words(s) ensures exists i | WordStart(s, i) :: w == WordAt(s, i) {
        if w == s[..n] {
          assert s[0..] == s;
          assert w == WordAt(s, 0);
        } else {
          assert Words(s) == [s[..n]] + Words(u);
          assert w in Words(u);
          var j :| WordStart(u, j) && w == WordAt(u, j);
          ShiftedWord(s, n, j);
        }
      }
    }
  }

  /** A word of `s[m..]` is a word of `s` when `s[m - 1]` is whitespace or
      `s[m]` is. */
  lemma ShiftedWord(s: string, m: nat, j: int)
    requires 0 < m <= |s| && WordStart(s[m..], j)
    requires IsSpace(s[m - 1]) || (m < |s| && IsSpace(s[m]))
    ensures WordStart(s, m + j) && WordAt(s[m..], j) == WordAt(s, m + j)
  {
    var u := s[m..];
    assert u[j] == s[m + j];
    if j != 0 {
      assert u[j - 1] == s[m + j - 1];
    }
    assert u[j..] == s[m + j..];
  }

  /** Every word is a non-empty run of characters of `s` without whitespace. */
  lemma {:induction false} WordsShape(s: string)
    ensures forall w | w in Words(s) :: w != [] && forall c | c in w :: c in s && !IsSpace(c)
    decreases |s|
  {
    if s == [] {
    } else if IsSpace(s[0]) {
      WordsShape(s[1..]);
      assert forall c | c in s[1..] :: c in s;
    } else {
      var n := WordLength(s);
      WordsShape(s[n..]);
      assert forall c | c in s[n..] :: c in s;
      assert forall c | c in s[..n] :: c in s && !IsSpace(c);
    }
  }

  /** Only words longer than two characters count, and a token holds only
      lower-case word characters: punctuation, accented letters and case
      never distinguish two tokens. */
  lemma TokensShape(s: string)
    ensures forall w | w in Tokens(s) :: |w| > 2 && forall c | c in w :: IsWordChar(c) && !IsAsciiUpper(c)
  {
    WordsShape(StripPunctuation(Lower(s)));
  }

  /** A whitespace-free word followed by whitespace, or by nothing, is the
      first word. */
  lemma WordsCons(w: string, rest: string)
    requires w != [] && forall c | c in w :: !IsSpace(c)
    requires rest == [] || IsSpace(rest[0])
    ensures Words(w + rest) == [w] + Words(rest)
  {
    var s := w + rest;
    assert forall i | 0 <= i < |w| :: s[i] == w[i] && w[i] in w;
    if rest != [] {
      assert IsSpace(s[|w|]);
    }
    var n := WordLength(s);
    assert n == |w|;
    assert s[..n] == w;
    assert s[n..] == rest;
  }

  /** Leading whitespace yields no word. */
  lemma WordsSkipSpace(c: char, rest: string)
    requires IsSpace(c)
    ensures Words([c] + rest) == Words(rest)
  {
    assert ([c] + rest)[1..] == rest;
  }

  /** A word followed by a space is the first word of the rest. */
  lemma WordsSpaced(w: string, rest: string)
    requires w != [] && forall c | c in w :: !IsSpace(c)
    ensures Words(w + " " + rest) == [w] + Words(rest)
  {
    assert w + " " + rest == w + ([' '] + rest);
    WordsCons(w, [' '] + rest);
    WordsSkipSpace(' ', rest);
  }

  /** A string without whitespace is a single word. */
  lemma SingleWord(w: string)
    requires w != [] && forall c | c in w :: !IsSpace(c)
    ensures Words(w) == [w]
  {
    assert w == w + [];
    WordsCons(w, []);
  }

  /** When every word is longer than two characters, the tokens are the
      words. */
  lemma WordsAreTokens(t: string, ws: seq<string>)
    requires Words(StripPunctuation(Lower(t))) == ws
    requires forall w | w in ws :: |w| > 2
    ensures Tokens(t) == set w | w in ws
  {
  }

  /** A word that survives the tokenizer unchanged: lower-case word
      characters only, and longer than two characters. */
  predicate PlainWord(w: string) {
    |w| > 2 && forall c | c in w :: Kept(c) && !IsSpace(c)
  }

  /** A lower-cased title of three plain words separated by single spaces
      has exactly those words as its tokens. */
  lemma ThreeWordTokens(t: string, a: string, b: string, c: string)
    requires Lower(t) == a + " " + (b + " " + c)
    requires PlainWord(a) && PlainWord(b) && PlainWord(c)
    ensures Tokens(t) == {a, b, c}
  {
    ThreeWordSplit(t, a, b, c);
    WordsAreTokens(t, [a, b, c]);
    SetOfThree(a, b, c);
  }

  lemma SetOfThree(a: string, b: string, c: string)
    ensures (set w | w in [a, b, c]) == {a, b, c}
  {
  }

  lemma ThreeWordSplit(t: string, a: string, b: string, c: string)
    requires Lower(t) == a + " " + (b + " " + c)
    requires PlainWord(a) && PlainWord(b) && PlainWord(c)
    ensures Words(StripPunctuation(Lower(t))) == [a, b, c]
  {
    StripPlain(a, b, c);
    ThreeWords(a, b, c);
  }

  /** Three plain words and two spaces lose nothing to the punctuation
      filter. */
  lemma StripPlain(a: string, b: string, c: string)
    requires PlainWord(a) && PlainWord(b) && PlainWord(c)
    ensures StripPunctuation(a + " " + (b + " " + c)) == a + " " + (b + " " + c)
  {
    StripSpaced(a, b + " " + c);
    StripSpaced(b, c);
    FilterAllPass(c, Kept);
  }

  /** A run of kept characters and a space pass the filter unchanged. */
  lemma StripSpaced(a: string, rest: string)
    requires forall x | x in a :: Kept(x)
    ensures StripPunctuation(a + " " + rest) == a + " " + StripPunctuation(rest)
  {
    FilterAppend(a + " ", rest, Kept);
    FilterAppend(a, " ", Kept);
    FilterAllPass(a, Kept);
    FilterAllPass(" ", Kept);
  }

  /** One character that is neither a word character nor whitespace,
      between kept characters, is the only one deleted. */
  lemma StripDropsOne(p: string, q: char, s: string)
    requires (forall x | x in p :: Kept(x)) && !Kept(q) && forall x | x in s :: Kept(x)
    ensures StripPunctuation(p + [q] + s) == p + s
  {
    FilterAppend(p + [q], s, Kept);
    FilterAppend(p, [q], Kept);
    FilterAllPass(p, Kept);
    FilterNonePass([q], Kept);
    FilterAllPass(s, Kept);
    assert Filter(p + [q], Kept) == p;
  }

  lemma ThreeWords(a: string, b: string, c: string)
    requires PlainWord(a) && PlainWord(b) && PlainWord(c)
    ensures Words(a + " " + (b + " " + c)) == [a, b, c]
  {
    WordsSpaced(a, b + " " + c);
    WordsSpaced(b, c);
    SingleWord(c);
  }

  // The example lemmas below fix their literal through a parameter and a
  // `requires` instead of writing it in the statement, and take one step
  // each: a literal argument makes the verifier unfold the recursive string
  // functions on it eagerly, which costs far more than these small steps.

  /** A headline without punctuation: its tokens are its words, lower-cased. */
  lemma HeadlineTokens(t: string)
    requires t == "Fed cuts rates"
    ensures Tokens(t) == {"fed", "cuts", "rates"}
  {
    HeadlineLower(t);
    HeadlinePlain("fed", "cuts", "rates");
    ThreeWordTokens(t, "fed", "cuts", "rates");
  }

  lemma HeadlinePlain(a: string, b: string, c: string)
    requires a == "fed" && b == "cuts" && c == "rates"
    ensures PlainWord(a) && PlainWord(b) && PlainWord(c)
  {
  }

  lemma HeadlineLower(t: string)
    requires t == "Fed cuts rates"
    ensures Lower(t) == "fed" + " " + ("cuts" + " " + "rates")
  {
    HeadlineRest(t);
    LowerCapitalized(t);
    CapitalLetter(t[0], 'f');
  }

  lemma HeadlineRest(t: string)
    requires t == "Fed cuts rates"
    ensures forall c | c in t[1..] :: !IsAsciiUpper(c) && c != '\U{130}' && c != '\U{212A}'
  {
  }

  /** Deleting the apostrophe joins the possessive into one word, so
      "Trump" and "Trump's" share no token and score 0. */
  lemma PossessiveNotMatched(a: string, b: string)
    requires a == "Trump" && b == "Trump's"
    ensures Tokens(a) == {"trump"} && Tokens(b) == {"trumps"}
    ensures Score(a, b) == 0.0 && !Similar(a, b)
  {
    PossessiveTokens(a, "trump");
    PossessiveTokens(b, "trumps");
    assert Tokens(a) * Tokens(b) == {};
  }

  lemma PossessiveTokens(t: string, w: string)
    requires (t == "Trump" && w == "trump") || (t == "Trump's" && w == "trumps")
    ensures Tokens(t) == {w}
  {
    if t == "Trump" {
      NameSplit(t, w);
    } else {
      PossessiveSplit(t, w);
    }
    OneWordTokens(t, w);
  }

  lemma OneWordTokens(t: string, w: string)
    requires Words(StripPunctuation(Lower(t))) == [w] && |w| > 2
    ensures Tokens(t) == {w}
  {
    WordsAreTokens(t, [w]);
    assert (set x | x in [w]) == {w};
  }

  lemma NameSplit(t: string, w: string)
    requires t == "Trump" && w == "trump"
    ensures Words(StripPunctuation(Lower(t))) == [w]
  {
    NameLower(t, w);
    FilterAllPass(w, Kept);
    SingleWord(w);
  }

  lemma PossessiveSplit(t: string, w: string)
    requires t == "Trump's" && w == "trumps"
    ensures Words(StripPunctuation(Lower(t))) == [w]
  {
    PossessiveSpaceless(w);
    NameLower(t, "trump's");
    PossessiveStrip("trump's", w);
    SingleWord(w);
  }

  lemma PossessiveSpaceless(w: string)
    requires w == "trumps"
    ensures w != [] && forall c | c in w :: !IsSpace(c)
  {
  }

  lemma NameLower(t: string, l: string)
    requires (t == "Trump" && l == "trump") || (t == "Trump's" && l == "trump's")
    ensures Lower(t) == l
  {
    LowerCapitalized(t);
    CapitalLetter(t[0], 't');
  }

  /** The apostrophe is the one character deleted. */
  lemma PossessiveStrip(l: string, w: string)
    requires l == "trump's" && w == "trumps"
    ensures StripPunctuation(l) == w
  {
    assert l == "trump" + ['\''] + "s";
    StripDropsOne("trump", '\'', "s");
    assert w == "trump" + "s";
  }

  lemma IntersectionWithinUnion(a: set<string>, b: set<string>)
    ensures |a * b| <= |a + b|
  {
    assert |a - b| + |b - a| + |a * b| == |a + b|;
  }

  /** A ratio of naturals whose numerator is at most its denominator. */
  function Ratio(i: nat, u: nat): (r: real)
    requires 0 < u && i <= u
    ensures 0.0 <= r <= 1.0
    ensures r == 0.0 <==> i == 0
    ensures r == 1.0 <==> i == u
    ensures r * (u as real) == i as real
  {
    (i as real) / (u as real)
  }

  /** The Jaccard index of two token sets: shared tokens over all tokens,
      or 0 when both sets are empty. */
  function Jaccard(ta: set<string>, tb: set<string>): (r: real)
    ensures 0.0 <= r <= 1.0
    ensures ta == {} && tb == {} ==> r == 0.0
    ensures ta == tb && ta != {} ==> r == 1.0
    ensures r == 1.0 ==> ta == tb
  {
    IntersectionWithinUnion(ta, tb);
    if |ta + tb| == 0 then 0.0
    else
      SharedIsAllExactlyWhenEqual(ta, tb);
      Ratio(|ta * tb|, |ta + tb|)
  }

  lemma SharedIsAllExactlyWhenEqual(ta: set<string>, tb: set<string>)
    ensures |ta * tb| == |ta + tb| <==> ta == tb
  {
    assert |ta - tb| + |tb - ta| + |ta * tb| == |ta + tb|;
    if |ta * tb| == |ta + tb| {
      assert ta - tb == {} && tb - ta == {};
    }
    if ta == tb {
      assert ta * tb == ta + tb;
    }
  }

  /** The threshold test `> 0.12` on token sets, in integers. */
  predicate SimilarSets(ta: set<string>, tb: set<string>) {
    25 * |ta * tb| > 3 * |ta + tb|
  }

  /** `jaccardSimilarity(a, b)`. */
  function Score(a: string, b: string): (r: real)
    ensures 0.0 <= r <= 1.0
    ensures Tokens(a) == {} && Tokens(b) == {} ==> r == 0.0
    ensures r == 1.0 <==> Tokens(a) == Tokens(b) && Tokens(a) != {}
  {
    Jaccard(Tokens(a), Tokens(b))
  }

  /** `jaccardSimilarity(a, b) > 0.12`, the test `clusterStories` applies. */
  predicate Similar(a: string, b: string)
    ensures Similar(a, b) <==> Score(a, b) > 0.12
  {
    SimilarMeansAboveThreshold(Tokens(a), Tokens(b));
    SimilarSets(Tokens(a), Tokens(b))
  }

  /** The integer test is exactly the comparison of the score with 0.12. */
  lemma SimilarMeansAboveThreshold(ta: set<string>, tb: set<string>)
    ensures SimilarSets(ta, tb) <==> Jaccard(ta, tb) > 0.12
  {
    var i, u := |ta * tb|, |ta + tb|;
    IntersectionWithinUnion(ta, tb);
    if u != 0 {
      ThresholdInIntegers(Jaccard(ta, tb), i, u);
    }
  }

  lemma ThresholdInIntegers(r: real, i: nat, u: nat)
    requires 0 < u && r * (u as real) == i as real
    ensures r > 0.12 <==> 25 * i > 3 * u
  {
    var ir, ur := i as real, u as real;
    var d := r - 0.12;
    assert ir - 0.12 * ur == d * ur;
    assert 25.0 * ir - 3.0 * ur == 25.0 * (d * ur);
    if d > 0.0 {
      ProductOfPositives(d, ur);
    } else if d < 0.0 {
      ProductOfPositives(-d, ur);
      assert -d * ur == -(d * ur);
    }
  }

  lemma ProductOfPositives(x: real, y: real)
    requires x > 0.0 && y > 0.0
    ensures x * y > 0.0
  {
  }

  /** The score and the threshold test do not depend on argument order. */
  lemma ScoreSymmetric(a: string, b: string)
    ensures Score(a, b) == Score(b, a)
    ensures Similar(a, b) <==> Similar(b, a)
  {
    assert Tokens(a) * Tokens(b) == Tokens(b) * Tokens(a);
    assert Tokens(a) + Tokens(b) == Tokens(b) + Tokens(a);
  }

  /** A title is similar to itself exactly when it has a token. */
  lemma SelfSimilar(t: string)
    ensures Similar(t, t) <==> Tokens(t) != {}
  {
    assert Tokens(t) * Tokens(t) == Tokens(t);
    assert Tokens(t) + Tokens(t) == Tokens(t);
  }
}

=== FILE: sorting.dfy ===
/** The `sort` step of `clusterStories` (src/lib/analyzer.ts): newest first,
    by the comparator `new Date(b.publishedAt) - new Date(a.publishedAt)`.
    `Array.prototype.sort` is stable, so stories with the same instant keep
    their input order. */
module Sorting {
  import opened Wrappers
  import opened Stories
  import opened Seqs

  /** The comparator is negative: `a` is strictly newer than `b`. A `NaN`
      date on either side makes the difference `NaN`, which is never
      negative. */
  predicate Newer(a: NewsItem, b: NewsItem) {
    a.publishedAt.Some? && b.publishedAt.Some? && a.publishedAt.value > b.publishedAt.value
  }

  /** Every date is a valid instant: the comparator is then consistent. */
  predicate Dated(s: seq<NewsItem>) {
    forall i | 0 <= i < |s| :: s[i].publishedAt.Some?
  }

  /** No story is newer than one before it. */
  predicate NewestFirst(s: seq<NewsItem>) {
    forall i, j | 0 <= i < j < |s| :: !Newer(s[j], s[i])
  }

  /** `[x]` filtered at `t`. */
  function Own(x: NewsItem, t: int): seq<NewsItem> {
    if x.publishedAt == Some(t) then [x] else []
  }

  /** The stories published at instant `t`, in order. */
  function At(s: seq<NewsItem>, t: int): (r: seq<NewsItem>)
    ensures |r| <= |s|
  {
    if s == [] then []
    else At(s[..|s| - 1], t) + Own(s[|s| - 1], t)
  }

  /** `x` goes in front of the first story it is strictly newer than, so
      after every story with the same instant. */
  function Insert(ys: seq<NewsItem>, x: NewsItem): (r: seq<NewsItem>)
    ensures |r| == |ys| + 1
  {
    if ys == [] then [x]
    else if Newer(x, ys[0]) then [x] + ys
    else [ys[0]] + Insert(ys[1..], x)
  }

  /** The stable sort, as an insertion sort that takes the stories in input
      order. When a date is `NaN` the comparator is inconsistent and the
      engine's order is not fixed by the language; this one is the order
      an insertion sort gives. */
  function SortNewestFirst(s: seq<NewsItem>): (r: seq<NewsItem>)
    ensures |r| == |s|
  {
    if s == [] then [] else Insert(SortNewestFirst(s[..|s| - 1]), s[|s| - 1])
  }

  lemma {:induction false} InsertPermutes(ys: seq<NewsItem>, x: NewsItem)
    ensures multiset(Insert(ys, x)) == multiset(ys) + multiset{x}
  {
    if ys != [] && !Newer(x, ys[0]) {
      InsertPermutes(ys[1..], x);
      ConsMultiset(ys);
    }
  }

  /** The sort rearranges the stories and neither adds nor drops one. */
  lemma {:induction false} SortPermutes(s: seq<NewsItem>)
    ensures multiset(SortNewestFirst(s)) == multiset(s)
  {
    if s != [] {
      SortPermutes(s[..|s| - 1]);
      InsertPermutes(SortNewestFirst(s[..|s| - 1]), s[|s| - 1]);
      MultisetOfSnoc(s);
    }
  }

  lemma DatedByMultiset(s: seq<NewsItem>, t: seq<NewsItem>)
    requires Dated(s) && multiset(t) == multiset(s)
    ensures Dated(t)
  {
    forall i | 0 <= i < |t| ensures t[i].publishedAt.Some? {
      assert t[i] in multiset(t);
    }
  }

  /** Inserting a dated story into a dated newest-first list keeps it
      newest first. */
  lemma {:induction false} InsertKeepsOrder(ys: seq<NewsItem>, x: NewsItem)
    requires Dated(ys) && x.publishedAt.Some? && NewestFirst(ys)
    ensures NewestFirst(Insert(ys, x))
  {
    if ys != [] {
      if Newer(x, ys[0]) {
        FrontKeepsOrder(ys, x);
      } else {
        var tail := ys[1..];
        assert Dated(tail) && NewestFirst(tail) by {
          forall i | 0 <= i < |tail| ensures tail[i] == ys[i + 1] { }
        }
        InsertKeepsOrder(tail, x);
        InsertPermutes(tail, x);
        HeadKeepsOrder(ys, x, Insert(tail, x));
      }
    }
  }

  /** A story newer than the head of a newest-first list may go in front. */
  lemma FrontKeepsOrder(ys: seq<NewsItem>, x: NewsItem)
    requires ys != [] && Dated(ys) && NewestFirst(ys) && Newer(x, ys[0])
    ensures NewestFirst([x] + ys)
  {
    var r := [x] + ys;
    forall i, j | 0 <= i < j < |r| ensures !Newer(r[j], r[i]) {
      if i == 0 {
        assert !Newer(ys[j - 1], ys[0]);
      } else {
        assert r[i] == ys[i - 1] && r[j] == ys[j - 1];
      }
    }
  }

  /** The head of a newest-first list may stay in front of the tail with a
      story, not newer than it, inserted. */
  lemma HeadKeepsOrder(ys: seq<NewsItem>, x: NewsItem, ins: seq<NewsItem>)
    requires ys != [] && NewestFirst(ys) && !Newer(x, ys[0])
    requires NewestFirst(ins) && multiset(ins) == multiset(ys[1..]) + multiset{x}
    ensures NewestFirst([ys[0]] + ins)
  {
    var tail := ys[1..];
    var r := [ys[0]] + ins;
    forall i, j | 0 <= i < j < |r| ensures !Newer(r[j], r[i]) {
      if i == 0 {
        assert r[j] == ins[j - 1];
        assert r[j] in multiset(ins);
        if r[j] != x {
          assert r[j] in multiset(tail);
          var k :| 0 <= k < |tail| && tail[k] == r[j];
          assert !Newer(ys[k + 1], ys[0]);
        }
      } else {
        assert r[i] == ins[i - 1] && r[j] == ins[j - 1];
      }
    }
  }

  /** With valid dates the result is newest first. */
  lemma {:induction false} SortOrders(s: seq<NewsItem>)
    requires Dated(s)
    ensures NewestFirst(SortNewestFirst(s))
  {
    if s != [] {
      var init := s[..|s| - 1];
      assert Dated(init) by {
        forall i | 0 <= i < |init| ensures init[i] == s[i] { }
      }
      SortOrders(init);
      SortPermutes(init);
      DatedByMultiset(init, SortNewestFirst(init));
      InsertKeepsOrder(SortNewestFirst(init), s[|s| - 1]);
    }
  }

  /** `At` distributes over concatenation. */
  lemma {:induction false} AtAppend(a: seq<NewsItem>, b: seq<NewsItem>, t: int)
    ensures At(a + b, t) == At(a, t) + At(b, t)
    decreases |b|
  {
    if b == [] {
      ConcatEmpty(a);
      ConcatEmpty(At(a, t));
    } else {
      var b' := b[..|b| - 1];
      ConcatInit(a, b);
      AtAppend(a, b', t);
    }
  }

  lemma {:induction false} AtOfOlder(ys: seq<NewsItem>, t: int)
    requires forall i | 0 <= i < |ys| :: ys[i].publishedAt.Some? && ys[i].publishedAt.value < t
    ensures At(ys, t) == []
  {
    if ys != [] {
      AtOfOlder(ys[..|ys| - 1], t);
    }
  }

  /** Inserting `x` appends it to the stories of its own instant and leaves
      the other instants alone. */
  lemma {:induction false} InsertAt(ys: seq<NewsItem>, x: NewsItem, t: int)
    requires Dated(ys) && x.publishedAt.Some? && NewestFirst(ys)
    ensures At(Insert(ys, x), t) == At(ys, t) + Own(x, t)
  {
    if ys == [] {
      SingleAt(x, t);
    } else if Newer(x, ys[0]) {
      FrontAt(ys, x, t);
    } else {
      var head, tail := ys[0], ys[1..];
      assert Dated(tail) && NewestFirst(tail) by {
        forall i | 0 <= i < |tail| ensures tail[i] == ys[i + 1] { }
      }
      InsertAt(tail, x, t);
      ConsSplit(ys);
      AtAppend([head], tail, t);
      AtAppend([head], Insert(tail, x), t);
    }
  }

  lemma SingleAt(x: NewsItem, t: int)
    ensures At([x], t) == Own(x, t)
  {
    assert [x][..0] == [];
  }

  /** A story newer than the head of a newest-first list is newer than all
      of it, so nothing else shares its instant. */
  lemma FrontAt(ys: seq<NewsItem>, x: NewsItem, t: int)
    requires ys != [] && Dated(ys) && NewestFirst(ys) && Newer(x, ys[0])
    ensures At([x] + ys, t) == At(ys, t) + Own(x, t)
  {
    AtAppend([x], ys, t);
    SingleAt(x, t);
    if x.publishedAt == Some(t) {
      forall i | 0 <= i < |ys| ensures ys[i].publishedAt.value < t {
        assert i == 0 || !Newer(ys[i], ys[0]);
      }
      AtOfOlder(ys, t);
      ConcatEmpty(Own(x, t));
    } else {
      ConcatEmpty(At(ys, t));
    }
  }

  /** The sort is stable: the stories of each instant keep their input
      order. */
  lemma {:induction false} SortStable(s: seq<NewsItem>, t: int)
    requires Dated(s)
    ensures At(SortNewestFirst(s), t) == At(s, t)
  {
    if s != [] {
      var init := s[..|s| - 1];
      assert Dated(init) by {
        forall i | 0 <= i < |init| ensures init[i] == s[i] { }
      }
      SortStable(init, t);
      SortOrders(init);
      SortPermutes(init);
      DatedByMultiset(init, SortNewestFirst(init));
      InsertAt(SortNewestFirst(init), s[|s| - 1], t);
    }
  }
}

=== FILE: source_bias.dfy ===
/** The leaning classifier of the analyzer: `SOURCE_BIAS` and
    `getBiasForSource` (src/lib/analyzer.ts). */
module SourceBias {
  import opened Text

  /** The three leaning labels the analyzer assigns. */
  datatype Bias = Left | Center | Right

  /** `SOURCE_BIAS`: the curated outlet table, looked up by exact name. It is
      written as three regional parts, as the source groups it; no name
      appears in two parts. */
  const SourceTable: map<string, Bias> := ChileTable + SpanishTable + EnglishTable

  const ChileTable: map<string, Bias> := map[
    "La Tercera" := Right,
    "Emol" := Right,
    "BioBioChile" := Right,
    "El Mercurio" := Right,
    "Radio Agricultura" := Right,
    "Meganoticias" := Center,
    "24horas.cl" := Center,
    "T13" := Center,
    "CNN Chile" := Left,
    "Cooperativa.cl" := Left,
    "El Mostrador" := Left,
    "El Desconcierto" := Left,
    "La Izquierda Diario" := Left,
    "El Ciudadano" := Left,
    "The Clinic" := Left,
    "Radio Universidad de Chile" := Left,
    "Interferencia" := Left,
    "Radio B\U{ED}o-B\U{ED}o" := Right
  ]

  const SpanishTable: map<string, Bias> := map[
    "El Pa\U{ED}s" := Left,
    "P\U{E1}gina/12" := Left,
    "elDiario.es" := Left,
    "RT" := Left,
    "BBC News Mundo" := Center,
    "CNN en Espa\U{F1}ol" := Center,
    "Infobae" := Right,
    "Clar\U{ED}n" := Right,
    "La Naci\U{F3}n" := Right,
    "El Mundo" := Right,
    "ABC" := Right,
    "Marca" := Center,
    "Deutsche Welle (Espa\U{F1}ol)" := Center
  ]

  const EnglishTable: map<string, Bias> := map[
    "The New York Times" := Left,
    "CNN" := Left,
    "MSNBC" := Left,
    "Fox News" := Right,
    "BBC News" := Center,
    "The Guardian" := Left,
    "The Washington Post" := Left,
    "Reuters" := Center,
    "Associated Press" := Center,
    "USA Today" := Center,
    "Bloomberg" := Center,
    "Al Jazeera English" := Left,
    "Wall Street Journal" := Right,
    "New York Post" := Right
  ]

  /** Lower-case fragments tested, in this order, when the table misses. */
  const RightFragments: seq<string> := ["tercera", "mercurio", "emol", "fox"]
  const LeftFragments: seq<string> := ["mostrador", "izquierda", "ciudadano", "guardian"]
  const CenterFragments: seq<string> := ["cnn", "bbc", "reuters"]

  predicate ContainsAny(s: string, fragments: seq<string>) {
    exists i | 0 <= i < |fragments| :: Contains(s, fragments[i])
  }

  /** The substring heuristics on a table miss, resolved right, then left,
      then center, with `Center` as the default. */
  function Heuristic(lower: string): (r: Bias)
    ensures ContainsAny(lower, RightFragments) ==> r == Right
    ensures r == Left <==> !ContainsAny(lower, RightFragments) && ContainsAny(lower, LeftFragments)
    ensures r == Center <==> !ContainsAny(lower, RightFragments) && !ContainsAny(lower, LeftFragments)
  {
    if ContainsAny(lower, RightFragments) then Right
    else if ContainsAny(lower, LeftFragments) then Left
    else if ContainsAny(lower, CenterFragments) then Center
    else Center
  }

  /** `getBiasForSource`, reading only the table's own entries. */
  function BiasForSource(name: string): (r: Bias)
    ensures Trim(name) in SourceTable ==> r == SourceTable[Trim(name)]
    ensures Trim(name) !in SourceTable ==>
      (r == Right <==> ContainsAny(Lower(Trim(name)), RightFragments))
    ensures Trim(name) !in SourceTable && !ContainsAny(Lower(Trim(name)), RightFragments) ==>
      (r == Left <==> ContainsAny(Lower(Trim(name)), LeftFragments))
    ensures (Trim(name) !in SourceTable
             && !ContainsAny(Lower(Trim(name)), RightFragments)
             && !ContainsAny(Lower(Trim(name)), LeftFragments)) ==> r == Center
  {
    var clean := Trim(name);
    if clean in SourceTable then SourceTable[clean] else Heuristic(Lower(clean))
  }

  /** Whitespace around a source name never changes its label. */
  lemma BiasIgnoresPadding(p: string, name: string, q: string)
    requires AllSpace(p) && AllSpace(q)
    ensures BiasForSource(p + name + q) == BiasForSource(name)
  {
    TrimIgnoresPadding(p, name, q);
  }

  /** Classifying the trimmed name gives the same label as the raw name. */
  lemma BiasOfTrimmed(name: string)
    ensures BiasForSource(Trim(name)) == BiasForSource(name)
  {
    TrimIdempotent(name);
  }

  /** Every key of the table is already trimmed, so every entry is reached
      by its own name. */
  lemma TableEntriesReachable(name: string)
    requires name in SourceTable
    ensures BiasForSource(name) == SourceTable[name]
  {
    KeysTrimmed(name);
    TrimOfTrimmed(name);
  }

  predicate KeyStart(k: string) {
    k != [] && (IsAsciiUpper(k[0]) || ('0' <= k[0] <= '9') || k[0] == 'e')
  }

  /** Starts and ends with a visible ASCII character. */
  predicate PlainEnds(k: string) {
    k != [] && '!' <= k[0] <= '~' && '!' <= k[|k| - 1] <= '~'
  }

  lemma PlainEndsTrimmed(k: string)
    requires PlainEnds(k)
    ensures IsTrimmed(k)
  {
  }

  /** Every name in the table is already trimmed, and starts with a capital,
      a digit or the letter 'e'. */
  lemma KeysTrimmed(k: string)
    requires k in SourceTable
    ensures IsTrimmed(k)
    ensures KeyStart(k)
  {
    if k in ChileTable {
      ChileKeysPlain(k);
    } else if k in SpanishTable {
      SpanishKeysPlain(k);
    } else {
      EnglishKeysPlain(k);
    }
    PlainEndsTrimmed(k);
  }

  lemma ChileKeysPlain(k: string)
    requires k in ChileTable
    ensures PlainEnds(k)
    ensures KeyStart(k)
  {
    assert k == "La Tercera" || k == "Emol" || k == "BioBioChile" || k == "El Mercurio"
        || k == "Radio Agricultura" || k == "Meganoticias" || k == "24horas.cl"
        || k == "T13" || k == "CNN Chile" || k == "Cooperativa.cl" || k == "El Mostrador"
        || k == "El Desconcierto" || k == "La Izquierda Diario" || k == "El Ciudadano"
        || k == "The Clinic" || k == "Radio Universidad de Chile" || k == "Interferencia"
        || k == "Radio B\U{ED}o-B\U{ED}o";
  }

  lemma SpanishKeysPlain(k: string)
    requires k in SpanishTable
    ensures PlainEnds(k)
    ensures KeyStart(k)
  {
    assert k == "El Pa\U{ED}s" || k == "P\U{E1}gina/12" || k == "elDiario.es" || k == "RT"
        || k == "BBC News Mundo" || k == "CNN en Espa\U{F1}ol" || k == "Infobae"
        || k == "Clar\U{ED}n" || k == "La Naci\U{F3}n" || k == "El Mundo" || k == "ABC"
        || k == "Marca" || k == "Deutsche Welle (Espa\U{F1}ol)";
  }

  lemma EnglishKeysPlain(k: string)
    requires k in EnglishTable
    ensures PlainEnds(k)
    ensures KeyStart(k)
  {
    assert k == "The New York Times" || k == "CNN" || k == "MSNBC" || k == "Fox News"
        || k == "BBC News" || k == "The Guardian" || k == "The Washington Post"
        || k == "Reuters" || k == "Associated Press" || k == "USA Today"
        || k == "Bloomberg" || k == "Al Jazeera English" || k == "Wall Street Journal"
        || k == "New York Post";
  }

  // The example lemmas below fix their literal through a parameter and a
  // `requires` instead of writing it in the statement, and take one step
  // each: a literal argument makes the verifier unfold the recursive string
  // functions on it eagerly, which costs far more than these small steps.

  /** A padded table name is found after trimming. */
  lemma FoxNewsPadded(name: string)
    requires name == "  Fox News "
    ensures BiasForSource(name) == Right
  {
    var p, key, q := "  ", "Fox News", " ";
    FoxNewsPadding(name, p, key, q);
    BiasIgnoresPadding(p, key, q);
    FoxNewsEntry(key);
    TableEntriesReachable(key);
  }

  lemma FoxNewsPadding(name: string, p: string, key: string, q: string)
    requires name == "  Fox News " && p == "  " && key == "Fox News" && q == " "
    ensures AllSpace(p) && AllSpace(q)
    ensures p + key + q == name
  {
    assert AllSpace(p) by { assert p[0] == ' ' && p[1] == ' '; }
    assert AllSpace(q) by { assert q[0] == ' '; }
  }

  lemma FoxNewsEntry(key: string)
    requires key == "Fox News"
    ensures key in SourceTable && SourceTable[key] == Right
  {
    assert key in EnglishTable;
  }

  /** Names that are not in the table are resolved by the fragments, right
      before left: "fox guardian" mentions both a right and a left outlet
      and is labelled `Right`. */
  lemma RightFragmentsWin(name: string)
    requires name == "fox guardian"
    ensures BiasForSource(name) == Right
  {
    FoxGuardianPlain(name);
    FoxGuardianMiss(name);
    MissResolvedRight(name);
  }

  lemma FoxGuardianPlain(name: string)
    requires name == "fox guardian"
    ensures Trim(name) == name && Lower(name) == name
  {
    FoxGuardianTrimmed(name);
    FoxGuardianLower(name);
  }

  lemma FoxGuardianMiss(name: string)
    requires name == "fox guardian"
    ensures name !in SourceTable && ContainsAny(name, RightFragments)
  {
    FoxGuardianFragments(name);
    NotInTable(name);
  }

  lemma FoxGuardianTrimmed(name: string)
    requires name == "fox guardian"
    ensures Trim(name) == name
  {
    TrimmedIsFixed(name);
  }

  lemma FoxGuardianLower(name: string)
    requires name == "fox guardian"
    ensures Lower(name) == name
  {
  }

  lemma FoxGuardianFragments(name: string)
    requires name == "fox guardian"
    ensures ContainsAny(name, RightFragments) && ContainsAny(name, LeftFragments)
  {
    assert OccursAt(name, RightFragments[3], 0);
    assert OccursAt(name, LeftFragments[3], 4);
  }

  /** A lower-case, trimmed name outside the table that mentions a right
      fragment is labelled `Right`, whatever else it mentions. */
  lemma MissResolvedRight(name: string)
    requires Trim(name) == name && Lower(name) == name && name !in SourceTable
    requires ContainsAny(name, RightFragments)
    ensures BiasForSource(name) == Right
  {
  }

  /** A trimmed literal is its own trimmed form. */
  lemma TrimmedIsFixed(s: string)
    requires s != [] && !IsSpace(s[0]) && !IsSpace(s[|s| - 1])
    ensures Trim(s) == s
  {
    TrimOfTrimmed(s);
  }

  /** A name starting with anything but a capital, a digit or 'e' is not
      in the table. */
  lemma NotInTable(name: string)
    requires !KeyStart(name)
    ensures name !in SourceTable
  {
    if name in SourceTable {
      KeysTrimmed(name);
    }
  }

  // ---------------------------------------------------------------------
  // The lookup as written. `SOURCE_BIAS` is a plain object literal, so
  // `SOURCE_BIAS[cleanName]` also finds the properties every object
  // inherits from `Object.prototype`. For those names the lookup yields a
  // function or an object, which is truthy and is returned as the "label".
  // ---------------------------------------------------------------------

  /** The property names of `Object.prototype`. */
  const ObjectPrototypeNames: set<string> := {
    "constructor", "__defineGetter__", "__defineSetter__", "hasOwnProperty",
    "__lookupGetter__", "__lookupSetter__", "isPrototypeOf",
    "propertyIsEnumerable", "toString", "valueOf", "__proto__", "toLocaleString"
  }

  /** What `getBiasForSource` returns as written: a label, or the inherited
      property `Object.prototype[name]`. */
  datatype LookupResult = Label(bias: Bias) | Inherited(property: string)

  function BiasForSourceAsWritten(name: string): (r: LookupResult)
    ensures r.Inherited? <==> Trim(name) !in SourceTable && Trim(name) in ObjectPrototypeNames
    ensures r.Inherited? ==> r.property == Trim(name)
    ensures r.Label? ==> r.bias == BiasForSource(name)
  {
    var clean := Trim(name);
    if clean in SourceTable then Label(SourceTable[clean])
    else if clean in ObjectPrototypeNames then Inherited(clean)
    else Label(Heuristic(Lower(clean)))
  }

  /** A source named "constructor" is not given a label at all. */
  lemma ConstructorIsNotALabel(name: string)
    requires name == "constructor"
    ensures BiasForSourceAsWritten(name) == Inherited(name)
  {
    ConstructorFacts(name);
  }

  lemma ConstructorFacts(name: string)
    requires name == "constructor"
    ensures Trim(name) == name && name !in SourceTable && name in ObjectPrototypeNames
  {
    ConstructorTrimmed(name);
    ConstructorStart(name);
    NotInTable(name);
  }

  lemma ConstructorTrimmed(name: string)
    requires name == "constructor"
    ensures Trim(name) == name
  {
    TrimmedIsFixed(name);
  }

  lemma ConstructorStart(name: string)
    requires name == "constructor"
    ensures !KeyStart(name)
  {
  }
}

=== FILE: stories.dfy ===
/** The records the analyzer works on: `NewsItem` and `StoryCluster`
    (src/lib/analyzer.ts). */
module Stories {
  import opened Wrappers
  import opened SourceBias

  /** `NewsItem`. `publishedAt` is the instant its ISO date string denotes,
      in milliseconds since the epoch, or `None` when `new Date(..)` gives
      `NaN`. `bias` is missing until `clusterStories` fills it in. */
  datatype NewsItem = NewsItem(
    url: string,
    title: string,
    source: string,
    publishedAt: Option<int>,
    description: Option<string>,
    urlToImage: Option<string>,
    bias: Option<Bias>)

  /** `biasDistribution`: one count per leaning. */
  datatype Distribution = Distribution(left: nat, center: nat, right: nat) {

    function Get(b: Bias): nat {
      match b
      case Left => left
      case Center => center
      case Right => right
    }

    /** `biasDistribution[b]++`. */
    function Inc(b: Bias): (r: Distribution)
      ensures r.Get(b) == Get(b) + 1
      ensures forall o: Bias | o != b :: r.Get(o) == Get(o)
    {
      match b
      case Left => this.(left := left + 1)
      case Center => this.(center := center + 1)
      case Right => this.(right := right + 1)
    }

    function Total(): nat {
      left + center + right
    }

    /** How many leanings have a non-zero count. */
    function Covered(): (n: nat)
      ensures n <= 3
      ensures n == 0 <==> Total() == 0
      ensures Total() == 1 ==> n == 1
    {
      (if left > 0 then 1 else 0) + (if center > 0 then 1 else 0) + (if right > 0 then 1 else 0)
    }
  }

  /** `StoryCluster`. The `id` stands for the `crypto.randomUUID()` value:
      the model numbers clusters in creation order instead. */
  datatype StoryCluster = StoryCluster(
    id: nat,
    mainTitle: string,
    summary: string,
    items: seq<NewsItem>,
    distribution: Distribution,
    firstPublishedAt: Option<int>)

  /** The number of items labelled `b`. */
  function CountBias(items: seq<NewsItem>, b: Bias): (n: nat)
    ensures n <= |items|
  {
    if items == [] then 0
    else CountBias(items[..|items| - 1], b) + (if items[|items| - 1].bias == Some(b) then 1 else 0)
  }

  /** The number of items that carry no label. */
  function CountUnlabelled(items: seq<NewsItem>): (n: nat)
    ensures n <= |items|
  {
    if items == [] then 0
    else CountUnlabelled(items[..|items| - 1]) + (if items[|items| - 1].bias.None? then 1 else 0)
  }

  predicate AllLabelled(items: seq<NewsItem>) {
    forall i | 0 <= i < |items| :: items[i].bias.Some?
  }

  /** Every item is counted once: under its label, or as unlabelled. */
  lemma {:induction false} CountsCoverItems(items: seq<NewsItem>)
    ensures CountBias(items, Left) + CountBias(items, Center) + CountBias(items, Right)
            + CountUnlabelled(items) == |items|
    ensures AllLabelled(items) ==> CountUnlabelled(items) == 0
  {
    if items != [] {
      var init := items[..|items| - 1];
      CountsCoverItems(init);
      var x := items[|items| - 1];
      if x.bias.Some? {
        assert x.bias.value.Left? || x.bias.value.Center? || x.bias.value.Right?;
      }
      assert AllLabelled(items) ==> AllLabelled(init) by {
        forall i | 0 <= i < |init| ensures init[i] == items[i] { }
      }
    }
  }

  lemma CountBiasAppend(items: seq<NewsItem>, x: NewsItem, b: Bias)
    ensures CountBias(items + [x], b) == CountBias(items, b) + (if x.bias == Some(b) then 1 else 0)
  {
    assert (items + [x])[..|items|] == items;
  }
}

=== FILE: text.dfy ===
/** The JavaScript string primitives the analyzer relies on: the `\s` and
    `trim` whitespace class, the `\w` word class, `toLowerCase`,
    `includes` and `split(sep)[0]`. Strings are sequences of Unicode
    scalar values. */
module Text {
  import opened Seqs

  /** The characters matched by the regular-expression class `\s` and removed
      by `String.prototype.trim`: ECMAScript WhiteSpace and LineTerminator. */
  predicate IsSpace(c: char) {
    || c == '\t' || c == '\n' || c == '\U{B}' || c == '\U{C}' || c == '\r'
    || c == ' ' || c == '\U{A0}' || c == '\U{1680}'
    || ('\U{2000}' <= c <= '\U{200A}')
    || c == '\U{2028}' || c == '\U{2029}' || c == '\U{202F}' || c == '\U{205F}'
    || c == '\U{3000}' || c == '\U{FEFF}'
  }

  /** The characters matched by the regular-expression class `\w`
      (no `u` flag): ASCII letters, digits and the underscore. */
  predicate IsWordChar(c: char) {
    ('a' <= c <= 'z') || ('A' <= c <= 'Z') || ('0' <= c <= '9') || c == '_'
  }

  predicate IsAsciiUpper(c: char) {
    'A' <= c <= 'Z'
  }

  /** `toLowerCase` of one character. ASCII capitals map to ASCII small
      letters; U+0130 (capital I with dot above) maps to "i" followed by
      U+0307, and U+212A (Kelvin sign) maps to "k". These are the only
      characters whose lower case contains an ASCII letter. Every other
      character is kept as it is (see README: the difference is invisible
      to every caller in this model). */
  function LowerChar(c: char): (r: string)
    ensures forall d | d in r :: !IsAsciiUpper(d)
    ensures IsAsciiUpper(c) ==> |r| == 1 && 'a' <= r[0] <= 'z' && r[0] as int - 'a' as int == c as int - 'A' as int
    ensures c == '\U{130}' ==> r == ['i', '\U{307}']
    ensures c == '\U{212A}' ==> r == ['k']
    ensures !IsAsciiUpper(c) && c != '\U{130}' && c != '\U{212A}' ==> r == [c]
    ensures IsSpace(c) <==> r == [c] && IsSpace(c)
  {
    if IsAsciiUpper(c) then [(c as int + 32) as char]
    else if c == '\U{130}' then "i\U{307}"
    else if c == '\U{212A}' then "k"
    else [c]
  }

  /** `String.prototype.toLowerCase`: each character lowered in place. A
      string with no capital is its own lower case. */
  function Lower(s: string): (r: string)
    ensures forall d | d in r :: !IsAsciiUpper(d)
    ensures |r| >= |s|
    ensures (forall i | 0 <= i < |s| :: !IsAsciiUpper(s[i]) && s[i] != '\U{130}' && s[i] != '\U{212A}') ==> r == s
  {
    if s == [] then [] else LowerChar(s[0]) + Lower(s[1..])
  }

  /** A capitalized word lowers to its small first letter and the rest as
      it is. */
  lemma LowerCapitalized(s: string)
    requires s != [] && IsAsciiUpper(s[0])
    requires forall c | c in s[1..] :: !IsAsciiUpper(c) && c != '\U{130}' && c != '\U{212A}'
    ensures Lower(s) == LowerChar(s[0]) + s[1..]
  {
    var rest := s[1..];
    assert forall i | 0 <= i < |rest| :: !IsAsciiUpper(rest[i]) && rest[i] != '\U{130}' && rest[i] != '\U{212A}' by {
      forall i | 0 <= i < |rest| ensures !IsAsciiUpper(rest[i]) && rest[i] != '\U{130}' && rest[i] != '\U{212A}' {
        assert rest[i] in rest;
      }
    }
    assert Lower(rest) == rest;
  }

  /** The small letter an ASCII capital lowers to. */
  lemma CapitalLetter(c: char, d: char)
    requires IsAsciiUpper(c) && 'a' <= d <= 'z' && d as int - 'a' as int == c as int - 'A' as int
    ensures LowerChar(c) == [d]
  {
  }

  /** Lowering works character by character: it distributes over
      concatenation, and a single character lowers as `LowerChar` says. */
  lemma {:induction false} LowerAppend(a: string, b: string)
    ensures Lower(a + b) == Lower(a) + Lower(b)
    ensures |a| == 1 ==> Lower(a) == LowerChar(a[0])
    decreases |a|
  {
    if a == [] {
      ConcatEmpty(b);
    } else {
      ConcatTail(a, b);
      LowerAppend(a[1..], b);
      if |a| == 1 {
        assert Lower(a[1..]) == [];
      }
    }
  }

  /** `s` with its leading whitespace removed. */
  function TrimStart(s: string): (r: string)
    ensures |r| <= |s| && r == s[|s| - |r|..]
    ensures forall i | 0 <= i < |s| - |r| :: IsSpace(s[i])
    ensures r == [] || !IsSpace(r[0])
  {
    if s != [] && IsSpace(s[0]) then TrimStart(s[1..]) else s
  }

  /** `s` with its trailing whitespace removed. */
  function TrimEnd(s: string): (r: string)
    ensures |r| <= |s| && r == s[..|r|]
    ensures forall i | |r| <= i < |s| :: IsSpace(s[i])
    ensures r == [] || !IsSpace(r[|r| - 1])
  {
    if s != [] && IsSpace(s[|s| - 1]) then TrimEnd(s[..|s| - 1]) else s
  }

  /** `String.prototype.trim`: the slice of `s` left once the whitespace at
      both ends is removed. */
  function Trim(s: string): (r: string)
    ensures exists k | 0 <= k <= |s| - |r| :: r == s[k..k + |r|] && AllSpace(s[..k]) && AllSpace(s[k + |r|..])
  {
    var a := TrimStart(s);
    var r := TrimEnd(a);
    TrimSlice(s, a, r);
    r
  }

  /** A prefix `r` of a suffix `a` of `s`, with whitespace around it, is
      the slice of `s` at the offset where `a` starts. */
  lemma TrimSlice(s: string, a: string, r: string)
    requires |a| <= |s| && a == s[|s| - |a|..] && forall i | 0 <= i < |s| - |a| :: IsSpace(s[i])
    requires |r| <= |a| && r == a[..|r|] && forall i | |r| <= i < |a| :: IsSpace(a[i])
    ensures r == s[|s| - |a|..|s| - |a| + |r|]
    ensures AllSpace(s[..|s| - |a|]) && AllSpace(s[|s| - |a| + |r|..])
  {
    var k := |s| - |a|;
    assert r == s[k..k + |r|] by {
      assert forall i | 0 <= i < |r| :: r[i] == a[i] == s[k + i];
    }
    var p := s[..k];
    assert AllSpace(p) by {
      forall i | 0 <= i < |p| ensures IsSpace(p[i]) {
        assert p[i] == s[i];
      }
    }
    var q := s[k + |r|..];
    assert AllSpace(q) by {
      forall i | 0 <= i < |q| ensures IsSpace(q[i]) {
        assert q[i] == a[|r| + i];
      }
    }
  }

  predicate AllSpace(s: string) {
    forall i | 0 <= i < |s| :: IsSpace(s[i])
  }

  /** A trimmed string neither starts nor ends with whitespace. */
  predicate IsTrimmed(s: string) {
    s == [] || (!IsSpace(s[0]) && !IsSpace(s[|s| - 1]))
  }

  /** The result of `Trim` neither starts nor ends with whitespace. */
  lemma TrimIsTrimmed(s: string)
    ensures IsTrimmed(Trim(s))
  {
    var a := TrimStart(s);
    var r := TrimEnd(a);
    if r != [] {
      assert r[0] == a[0];
    }
  }

  lemma TrimOfTrimmed(s: string)
    requires IsTrimmed(s)
    ensures Trim(s) == s
  {
  }

  /** Trimming is idempotent. */
  lemma TrimIdempotent(s: string)
    ensures Trim(Trim(s)) == Trim(s)
  {
    TrimIsTrimmed(s);
    TrimOfTrimmed(Trim(s));
  }

  /** Whitespace added around a string does not change its trimmed form. */
  lemma {:induction false} TrimIgnoresPadding(p: string, s: string, q: string)
    requires AllSpace(p) && AllSpace(q)
    ensures Trim(p + s + q) == Trim(s)
  {
    EndsIgnorePadding(p, s, q);
    TrimIsBothEnds(p + s + q);
    TrimIsBothEnds(s);
  }

  lemma EndsIgnorePadding(p: string, s: string, q: string)
    requires AllSpace(p) && AllSpace(q)
    ensures TrimEnd(TrimStart(p + s + q)) == TrimEnd(TrimStart(s))
  {
    assert p + s + q == p + (s + q);
    TrimStartPadding(p, s + q);
    TrimStartAppend(s, q);
    var a := TrimStart(s);
    var b := TrimStart(s + q);
    if a == [] {
      assert b == q || b == [] by {
        assert [] + q == q;
      }
      TrimEndPadding([], q);
      assert [] + q == q;
      assert TrimEnd(b) == [];
    } else {
      assert b == a + q;
      TrimEndPadding(a, q);
    }
  }

  /** `Trim` removes the leading whitespace, then the trailing whitespace. */
  lemma TrimIsBothEnds(s: string)
    ensures Trim(s) == TrimEnd(TrimStart(s))
  {
  }

  lemma {:induction false} TrimStartPadding(p: string, s: string)
    requires AllSpace(p)
    ensures TrimStart(p + s) == TrimStart(s)
    decreases |p|
  {
    if p != [] {
      ConcatTail(p, s);
      AllSpaceTail(p);
      TrimStartPadding(p[1..], s);
    } else {
      ConcatEmpty(s);
    }
  }

  lemma AllSpaceTail(p: string)
    requires p != [] && AllSpace(p)
    ensures AllSpace(p[1..])
  {
    assert forall i | 0 <= i < |p| - 1 :: p[1..][i] == p[i + 1];
  }

  lemma {:induction false} TrimStartAppend(s: string, q: string)
    requires AllSpace(q)
    ensures TrimStart(s + q) == TrimStart(s) + q || (TrimStart(s) == [] && TrimStart(s + q) == [])
    ensures TrimStart(s) != [] ==> TrimStart(s + q) == TrimStart(s) + q
    decreases |s|
  {
    if s == [] {
      TrimStartPadding(q, []);
      ConcatEmpty(q);
    } else if IsSpace(s[0]) {
      ConcatTail(s, q);
      TrimStartAppend(s[1..], q);
    } else {
      ConcatTail(s, q);
    }
  }

  lemma {:induction false} TrimEndPadding(s: string, q: string)
    requires AllSpace(q)
    ensures TrimEnd(s + q) == TrimEnd(s)
    decreases |q|
  {
    if q != [] {
      ConcatInit(s, q);
      TrimEndPadding(s, q[..|q| - 1]);
    } else {
      ConcatEmpty(s);
    }
  }

  /** `sep` occurs in `s` starting at index `k`. */
  predicate OccursAt(s: string, sep: string, k: int) {
    0 <= k && k + |sep| <= |s| && s[k..k + |sep|] == sep
  }

  /** `String.prototype.includes`. */
  predicate Contains(s: string, part: string) {
    exists k | 0 <= k <= |s| - |part| :: OccursAt(s, part, k)
  }

  /** `s.split(sep)[0]` for a non-empty separator: the text before the first
      occurrence of `sep`, or all of `s` when `sep` does not occur. */
  function BeforeFirst(s: string, sep: string): (r: string)
    requires sep != []
    ensures |r| <= |s| && r == s[..|r|]
    ensures forall k | 0 <= k < |r| :: !OccursAt(s, sep, k)
    ensures |r| < |s| ==> OccursAt(s, sep, |r|)
    decreases |s|
  {
    if |s| < |sep| then s
    else if s[..|sep|] == sep then []
    else
      var r' := BeforeFirst(s[1..], sep);
      OccursShift(s, sep);
      assert !OccursAt(s, sep, 0);
      assert forall k | 1 <= k < |r'| + 1 :: !OccursAt(s, sep, k) by {
        forall k | 1 <= k < |r'| + 1 ensures !OccursAt(s, sep, k) {
          assert !OccursAt(s[1..], sep, k - 1);
        }
      }
      [s[0]] + r'
  }

  /** An occurrence in `s` at `k + 1` is an occurrence in `s[1..]` at `k`. */
  lemma OccursShift(s: string, sep: string)
    requires s != []
    ensures forall k | 0 <= k :: OccursAt(s, sep, k + 1) <==> OccursAt(s[1..], sep, k)
  {
    forall k | 0 <= k
      ensures OccursAt(s, sep, k + 1) <==> OccursAt(s[1..], sep, k)
    {
      if k + 1 + |sep| <= |s| {
        var t := s[1..];
        assert t[k..k + |sep|] == s[k + 1..k + 1 + |sep|];
      }
    }
  }

  /** The text before the first separator never contains the separator. */
  lemma BeforeFirstHasNoSeparator(s: string, sep: string)
    requires sep != []
    ensures !Contains(BeforeFirst(s, sep), sep)
  {
    var r := BeforeFirst(s, sep);
    forall k | 0 <= k <= |r| - |sep| ensures !OccursAt(r, sep, k) {
      assert !OccursAt(s, sep, k);
      assert r[k..k + |sep|] == s[k..k + |sep|];
    }
  }

  /** The whole string is kept exactly when the separator does not occur. */
  lemma BeforeFirstWithoutSeparator(s: string, sep: string)
    requires sep != []
    ensures BeforeFirst(s, sep) == s <==> !Contains(s, sep)
  {
    BeforeFirstHasNoSeparator(s, sep);
  }
}

=== FILE: wrappers.dfy ===
/** The optional value used for JavaScript fields that may be missing
    (`undefined`/`null`) and for dates that fail to parse (`NaN`). */
module Wrappers {

  datatype Option<+T> = None | Some(value: T)
}
